=== FILE: README.md ===
# Agents, environments, task assignment and logs — a Dafny model

This project models the core of a multi-agent "interpreter" back end and one rule of its front
end:

- **Environment and skills**: a room is a key–value state. It drifts over time (temperature up,
  humidity down), and `set_state` merges values into it. The two shipped skills are bang-bang
  controllers. Each moves one key one step toward its band (temperature 20..22 in steps of 1,
  humidity 40..60 in steps of 5) and reports what it did.
- **Agents**: an agent holds skills and sub-agents. It merges the room's state into its own
  (`perceive`), runs its skills in order against the room (`act`), and keeps a history of their
  messages. It can judge the room it leaves (`evaluate`) and can be written to and read back from a
  dictionary.
- **Task assignment**: the agents whose capabilities cover a task's requirements are ranked. They
  are then offered the task in turn until one accepts, and the accepting agent completes it.
- **Log store**: lines of the form `[TIMESTAMP] [LEVEL] [MODULE] Message` are parsed with a lazy
  regular expression. Lines that do not match are kept with defaults. The store answers
  case-insensitive filters, keyword search and "most recent" queries.
- **Anthropic client**: chat messages are serialised into a `Human:`/`Assistant:` prompt. The
  completion call turns failures into `None`, and the API self-test decides success from the reply
  text.
- **Prompt record**: the record, with its ISO 8601 timestamps, is written to a dictionary and read
  back.
- **File browser**: the path a click on a directory opens, the parent path the ".." entry opens,
  and when that entry is shown.

Imperative parts of the source become classes with `modifies` clauses:

- `Environment`;
- `Agent`;
- `LogHandler`;
- `TaskAssignmentSystem` and the agents it works with (`TaskAgent`).

`AnthropicClient` is a class too, but it has no state that its methods update. It holds the
completion call, which is given to its constructor.

Each such method is proved against a specification function on values:

- `Merged`, `Drifted`, `Adjust` and `RunSkills`;
- `Evaluation`, `ParseLog` and `PromptBody`;
- `Suitable` and `FirstToAccept`.

Properties relating several calls are lemmas about those functions. Pure parts of the source are
functions with lemmas:

- the prompt record;
- the path rules;
- the log-line parser.

Modules:

- `Basics` holds `Option`, `Result` and `Outcome`.
- `Text` holds string helpers: containment, concatenation, `join`/`split`, `str(int)`.
- `Seqs` holds order-preserving filtering and a stable descending sort.
- `Environments`, `Skills`, `Agents`, `TaskAssignment`, `Logs`, `Anthropic`, `Prompts` (with
  `IsoDates`) and `FileBrowser` follow the source files one by one.

## Model

| member | source | states |
|---|---|---|
| Environments.Merged | interpreter/core/environment.py:25-31 | `dict.update`: the keys are the union; updated keys take the new values; all other keys keep theirs; no key disappears |
| Environments.Drifted | interpreter/core/environment.py:7-15 | the keys stay the same; an existing temperature rises; an existing humidity falls; nothing else changes |
| Environments.DriftWithoutClimate | interpreter/core/environment.py:7-15 | a state with neither temperature nor humidity does not drift |
| Environments.MergeIdempotent | interpreter/core/environment.py:25-31 | setting the same values twice is the same as setting them once |
| Environments.MergeTwice | interpreter/core/environment.py:25-31 | two `set_state` calls equal one call with the two updates merged, the later winning |
| Environments.Environment.constructor | interpreter/core/environment.py:4-5 | a new environment has an empty state |
| Environments.Environment.Update | interpreter/core/environment.py:7-15 | the new state is the drifted old state |
| Environments.Environment.GetState | interpreter/core/environment.py:17-23 | returns the current state |
| Environments.Environment.SetState | interpreter/core/environment.py:25-31 | the new state is the old state merged with the given values |
| Skills.Adjust | interpreter/core/skill.py:23-41 | a controller writes only its own key, and only when the reading (with its default) is outside the band. Above the band it writes reading − step, below it reading + step. The message says lowered/raised/maintained and reports the value the key then holds |
| Skills.WrittenIgnoresAgent | interpreter/core/skill.py:23-41 | what a controller writes does not depend on which agent runs it |
| Skills.StepTowardBand | interpreter/core/skill.py:23-41 | one run moves a reading above the band down and one below it up, and leaves one inside it unchanged |
| Skills.StepReading | interpreter/core/skill.py:23-41 | the reading after one run, as a number |
| Skills.StepDistance | interpreter/core/skill.py:23-41 | while outside the band, the distance to it shrinks by a full step, or to zero; it never grows |
| Skills.StepKeepsOtherKeys | interpreter/core/skill.py:23-41 | a run leaves every other key of the state unchanged |
| Skills.RepeatSettles | interpreter/core/skill.py:23-41 | n runs bring the reading into the band once n steps cover the distance, for any band whose step cannot jump over it, as both shipped bands are |
| Skills.Apply | interpreter/core/skill.py:23-41 | reads through `get_state` and writes through `set_state`; the environment ends merged with what `Adjust` writes, and the message is `Adjust`'s |
| Skills.Execute | interpreter/core/skill.py:9-17 | runs the skill's action for the agent and returns its message |
| Agents.Described | interpreter/core/agent.py:30-31 | one entry per skill, in order, holding that skill's name and description |
| Agents.WithoutSkill | interpreter/core/agent.py:27-28 | the result is a subsequence of the skills; none of it has the name; every skill with another name is kept, as often as before |
| Agents.RemoveAbsentSkill | interpreter/core/agent.py:27-28 | removing a name no skill has changes nothing |
| Agents.RemoveSkillIdempotent | interpreter/core/agent.py:27-28 | removing a name twice is removing it once |
| Agents.RunSkills | interpreter/core/agent.py:51-55 | one message per skill. Every key of the room stays, only temperature and humidity can be added, and every other key keeps its value |
| Agents.RunInOrder | interpreter/core/agent.py:52-54 | the i-th message is what the i-th skill reports on the room as the skills before it left it |
| Agents.Optimal | interpreter/core/agent.py:72-75 | a room with neither a temperature nor a humidity reading is judged optimal, by the defaults 20 and 50 |
| Agents.Evaluation | interpreter/core/agent.py:66-80 | the report starts with `Last actions taken by <name>:` and a newline, and ends with the good verdict when conditions are optimal and with the poor one when not |
| Agents.EvaluationVerdict | interpreter/core/agent.py:70-78 | the evaluation ends with the good verdict exactly when temperature (default 20) is in 19..23 and humidity (default 50) in 40..60, and with the poor verdict exactly when not |
| Agents.BulletsPrefix | interpreter/core/agent.py:66-68 | the bullet of each action follows the bullets of the actions before it |
| Agents.EvaluationListsActions | interpreter/core/agent.py:65-68 | the evaluation contains the line `- action` for every action of the last run |
| Agents.ControlledRoomIsOptimal | interpreter/core/agent.py:75 | a room both controllers hold inside their bands is judged optimal |
| Agents.Loaded | interpreter/core/agent.py:96-109 | an agent built from a dictionary has no skills, parent or sub-agents and keeps id and name. Description, prompt and model default to "" and state and parameters to `{}` when missing; each one present is kept as given |
| Agents.DictRoundTrip | interpreter/core/agent.py:82-109 | `from_dict(to_dict(a))` keeps id, name, description, prompt, model, state and parameters, and drops skills, parent and sub-agents |
| Agents.Agent.constructor | interpreter/core/agent.py:7-19 | a new agent has no id, the given fields, no sub-agents, empty state and parameters, no environment and no history. Description, prompt and model default to "", skills to none and parent to none |
| Agents.Agent.AddSkill | interpreter/core/agent.py:21-25 | a skill is appended and nothing else changes; any other value fails with the `ValueError` message and changes nothing |
| Agents.Agent.RemoveSkill | interpreter/core/agent.py:27-28 | the skills become `WithoutSkill` of the old ones; nothing else changes |
| Agents.Agent.GetSkills | interpreter/core/agent.py:30-31 | one name/description entry per skill, in order |
| Agents.Agent.AddSubAgent | interpreter/core/agent.py:33-35 | the child's parent becomes this agent and the child is appended to the sub-agents; nothing else changes, also when the child is the agent itself |
| Agents.Agent.SetEnvironment | interpreter/core/agent.py:37-38 | only the environment changes |
| Agents.Agent.Perceive | interpreter/core/agent.py:40-45 | without an environment it fails with the `ValueError` message and changes nothing; otherwise the agent's state is merged with the room's and nothing else changes |
| Agents.Agent.Act | interpreter/core/agent.py:47-59 | without an environment it fails and changes nothing. Otherwise it returns `RunSkills`'s messages, the room ends in `RunSkills`'s state, and the messages are appended to the history |
| Agents.Agent.Evaluate | interpreter/core/agent.py:61-80 | the fixed message with no history; the `AttributeError` when the environment is unset; otherwise `Evaluation` of the last run and the room |
| Agents.Agent.ToDict | interpreter/core/agent.py:82-94 | id, name, description, prompt, model, state and parameters as the agent holds them; skills as `get_skills` lists them; the parent's id when there is a parent and none exactly when there is not; the sub-agents' ids in order |
| Agents.Agent.FromDict | interpreter/core/agent.py:96-109 | a fresh agent whose `to_dict` is `Loaded(data)`, with no environment and no history |
| TaskAssignment.AnalyzeTask | interpreter/core/task_assignment.py:10-16 | the task's required capabilities, or none when the key is absent |
| TaskAssignment.CoveredMatchCount | interpreter/core/task_assignment.py:30 | an agent covering the requirements has ranking key equal to the number of distinct requirements |
| TaskAssignment.Suitable | interpreter/core/task_assignment.py:25-27 | the selection is a subsequence of the agent list; every selected agent covers the requirements; every covering agent is kept as often as it occurs |
| TaskAssignment.SuitableExactly | interpreter/core/task_assignment.py:25-27 | an agent is selected if and only if it is in the agent list and holds every required capability |
| TaskAssignment.RankingKeepsOrder | interpreter/core/task_assignment.py:29-30 | sorting the selection by descending key (stable, as Python's sort is) leaves it in agent-list order |
| TaskAssignment.NoRequirementsSelectsAll | interpreter/core/task_assignment.py:22-27 | a task without requirements selects every agent, in order |
| TaskAssignment.FirstToAcceptUnique | interpreter/core/task_assignment.py:41-44 | at most one candidate is the first to accept |
| TaskAssignment.TaskAgent.AssignTask | interpreter/core/task_assignment.py:42 | an offer is recorded, and the answer is the agent's decision given its earlier offers |
| TaskAssignment.TaskAgent.CompleteTask | interpreter/core/task_assignment.py:58 | the agent's result for the offers it has had |
| TaskAssignment.TaskAssignmentSystem.constructor | interpreter/core/task_assignment.py:7-8 | the system holds the given agents |
| TaskAssignment.TaskAssignmentSystem.SelectAgents | interpreter/core/task_assignment.py:18-32 | the result is the order-preserving filter of the agent list by coverage: every selected agent covers the task, and every covering agent is selected |
| TaskAssignment.TaskAssignmentSystem.AssignTask | interpreter/core/task_assignment.py:34-46 | at most one agent. It is empty exactly when no suitable agent accepts in its turn; otherwise it is the first that does. Agents up to it are offered the task once per place in the selection, later ones not at all |
| TaskAssignment.TaskAssignmentSystem.OfferInTurn | interpreter/core/task_assignment.py:41-44 | the offering loop with its `break`, over a given candidate list |
| TaskAssignment.TaskAssignmentSystem.ExecuteTask | interpreter/core/task_assignment.py:48-61 | when no suitable agent accepts: exactly "No suitable agent found for the task.", and every suitable agent has been offered the task once per place in the selection. Otherwise, for the first agent that accepts: its own result for its offers, with no newline added, and the agents up to it have been offered the task, later ones not |
| TaskAssignment.TaskAssignmentSystem.CompleteAll | interpreter/core/task_assignment.py:56-59 | one result per chosen agent, in order, each that agent's result for its offers |
| Logs.UpToNewline | interpreter/core/log_handler.py:13 | the greedy `(.*)`: a newline-free prefix that stops at the first newline or the end |
| Logs.GroupLengths | interpreter/core/log_handler.py:13-14 | a match starts with `[` and its three lazy groups are followed by `] [`, `] [` and `] ` |
| Logs.MatchComplete | interpreter/core/log_handler.py:13-14 | whenever the first line can be cut into the pattern's parts at all, `re.match` succeeds, with a first group no longer than that cut |
| Logs.MatchIsLazy | interpreter/core/log_handler.py:13 | each lazy group is the shortest one with which the rest of the pattern still matches |
| Logs.Match | interpreter/core/log_handler.py:13-17 | on success the first line is `[` t `] [` l `] [` m `] ` msg, made of the four groups |
| Logs.Strip | interpreter/core/log_handler.py:20-21 | `strip('[]')`: the result neither begins nor ends with a bracket, only brackets were removed around it, and a bracket-free string is unchanged |
| Logs.ParseLog | interpreter/core/log_handler.py:8-31 | a non-matching line becomes (now, INFO, UNKNOWN, line). A matching one becomes its groups, with level and module stripped of brackets at both ends |
| Logs.ParseWellFormed | interpreter/core/log_handler.py:12-23 | `[t] [l] [m] msg`, with t, l, m free of `]` and newlines, parses to t, stripped l and m, and the first line of msg |
| Logs.ParseOneLine | interpreter/core/log_handler.py:12-23 | such a line with a one-line message keeps the whole message |
| Logs.ParsePlainLine | interpreter/core/log_handler.py:12-23 | when level and module also contain no brackets, all four parts come back unchanged |
| Logs.SliceFrom | interpreter/core/log_handler.py:62 | Python's `s[start:]` for every integer start, negative and out-of-range ones included |
| Logs.Recent | interpreter/core/log_handler.py:58-62 | `logs[-n:]`: the last n entries for 1 ≤ n ≤ len; everything for n ≥ len and for n = 0; a prefix cut for negative n |
| Logs.RecentZeroReturnsAll | interpreter/core/log_handler.py:58-62 | asking for the zero most recent entries of a non-empty store returns all of them |
| Logs.LastN | interpreter/core/log_handler.py:58-62 | the n most recent entries: exactly min(n, len) entries, the tail of the store |
| Logs.RecentAgreesForPositive | interpreter/core/log_handler.py:58-62 | the slice and the n most recent entries agree for every positive n |
| Logs.LogHandler.constructor | interpreter/core/log_handler.py:5-6 | a new handler holds no entries |
| Logs.LogHandler.AddLog | interpreter/core/log_handler.py:33-38 | the parsed line is appended and the earlier entries are kept |
| Logs.LogHandler.LogsByLevel | interpreter/core/log_handler.py:40-44 | exactly the entries whose level equals the given one ignoring case, in order, each as often as stored |
| Logs.LogHandler.LogsByModule | interpreter/core/log_handler.py:46-50 | exactly the entries whose module equals the given one ignoring case, in order, each as often as stored |
| Logs.LogHandler.SearchLogs | interpreter/core/log_handler.py:52-56 | exactly the entries whose message contains the keyword ignoring case, in order, each as often as stored |
| Logs.LogHandler.RecentLogs | interpreter/core/log_handler.py:58-62 | the last n entries for 1 ≤ n ≤ len, and all of them for n ≥ len or n = 0; n defaults to 10 |
| Logs.LogHandler.ClearLogs | interpreter/core/log_handler.py:64-68 | no entries remain |
| Logs.SearchEmptyKeyword | interpreter/core/log_handler.py:52-56 | the empty keyword matches every entry |
| Anthropic.Turn | interpreter/core/anthropic_client.py:27-30 | a message adds nothing exactly when it is neither from the user nor from the assistant; otherwise it adds the matching prefix followed by its content |
| Anthropic.Turns | interpreter/core/anthropic_client.py:26-30 | one piece per message, in order: the user or assistant prefix and the content, or nothing for other roles |
| Anthropic.PromptBodyEmpty | interpreter/core/anthropic_client.py:26-30 | the prompt before the cue is empty exactly when no message is from the user or the assistant |
| Anthropic.PromptBodyAppend | interpreter/core/anthropic_client.py:26-30 | the body of two message lists is the two bodies one after the other |
| Anthropic.OtherRoleIgnored | interpreter/core/anthropic_client.py:27-30 | a message of any other role, wherever it occurs, leaves the prompt unchanged |
| Anthropic.SingleUserMessage | interpreter/core/anthropic_client.py:24-32 | a single user message becomes `\n\nHuman: content\n\nAssistant:` |
| Anthropic.SuccessIffPhrase | interpreter/core/anthropic_client.py:38 | the self-test's condition holds exactly when the reply is present and contains the phrase |
| Anthropic.AnthropicClient.ConvertMessagesToPrompt | interpreter/core/anthropic_client.py:24-32 | the turns of the messages in order, always ending with `\n\nAssistant:` |
| Anthropic.AnthropicClient.ChatCompletion | interpreter/core/anthropic_client.py:12-22 | the call on the converted prompt either returns a completion or raises. The reply is that completion when it returns, and `None` exactly when it raises |
| Anthropic.AnthropicClient.TestApi | interpreter/core/anthropic_client.py:34-43 | success, with the fixed report, exactly when the call returns a completion that contains the phrase. A completion without the phrase fails with a report quoting it; a call that raises fails with "Unexpected response: None" |
| Prompts.NewPrompt | interpreter/core/models/prompt.py:4-10 | the given fields are kept; a missing timestamp takes its clock reading, a given one is kept |
| Prompts.ToDict | interpreter/core/models/prompt.py:12-20 | exactly the six keys, the plain fields unchanged and the timestamps in ISO form |
| Prompts.ParseTimestamp | interpreter/core/models/prompt.py:29-30 | a value that is not a string fails with `TypeError`. A string succeeds exactly when `fromisoformat` reads it, with the same date-time, and otherwise fails with `ValueError` carrying `fromisoformat`'s reason |
| Prompts.FromDict | interpreter/core/models/prompt.py:22-31 | success exactly when all six keys are present and both timestamps parse. The plain fields come from the dictionary unchanged and the timestamps are the parsed values. With all keys present, a `created_at` that does not parse fails with `ParseTimestamp`'s error; so does an `updated_at` that does not parse when `created_at` does |
| Prompts.DictRoundTrip | interpreter/core/models/prompt.py:12-31 | `from_dict(to_dict(p))` is p, field by field |
| Prompts.MissingKeyFails | interpreter/core/models/prompt.py:22-31 | a dictionary without one of the six keys fails with a `KeyError` naming the first missing key. The exception is a missing `updated_at` when `created_at` does not parse, which fails on `created_at` first |
| IsoDates.IsoFormat | interpreter/core/models/prompt.py:18-19 | `isoformat()` is 19 characters long, or 26 with microseconds |
| IsoDates.IsoFormatLayout | interpreter/core/models/prompt.py:18-19 | `isoformat()` writes `-` at 4 and 7, `T` at 10, `:` at 13 and 16, and `.` at 19 when there are microseconds. Year, month, day, hour, minute and second are at 0-3, 5-6, 8-9, 11-12, 14-15 and 17-18, and the microseconds at 20-25 |
| IsoDates.RangeError | interpreter/core/models/prompt.py:29-30 | the `datetime` constructor's check: no complaint exactly when every field is in range. Otherwise the message for the first field out of range, checked in the order year, month, day, hour, minute, second, microsecond: "year N is out of range", "month must be in 1..12", "day is out of range for month", "hour must be in 0..23", "minute must be in 0..59", "second must be in 0..59", "microsecond must be in 0..999999" |
| IsoDates.ReadIso | interpreter/core/models/prompt.py:29-30 | text is read exactly when it has a four-digit year, a two-digit month and a two-digit day at 0-3, 5-6 and 8-9 with `-` between them, and is either 10 characters long or has a readable time part after one separator character. A read has those date fields. Its time fields are zero for 10-character text and otherwise `ParseTime`'s reading of the part after the separator |
| IsoDates.FromIsoFormat | interpreter/core/models/prompt.py:29-30 | text outside the grammar fails as an invalid string, and only such text does. Text that is read succeeds exactly when its fields are in range, and the value is then `ReadIso`'s reading. Otherwise it fails with the constructor's message for the first field out of range. A success read its date fields from positions 0-3, 5-6 and 8-9 |
| IsoDates.MonthThirteen | interpreter/core/models/prompt.py:29-30 | `2023-13-01` fails with "month must be in 1..12", not as an invalid string |
| IsoDates.YearZero | interpreter/core/models/prompt.py:29-30 | `0000-01-01T00:00` fails with "year 0 is out of range" |
| IsoDates.ParseTime | interpreter/core/models/prompt.py:29-30 | the time part as the C parser of Python 3.7–3.10 reads it. Five characters `HH:MM` are read exactly when both fields are two digits, and eight characters `HH:MM:SS` exactly when all three are. A reading's hour is the field at 0-1. After `:` the minute is the field at 3-4, after a second `:` the second is at 6-7, and after a third `:` or `.` the fraction runs from 9. A `.` after the hour or minute makes the later fields zero and starts the fraction there. The fraction is three digits (milliseconds) or six (microseconds), and zero when there is none. A reading is 2, 5, 6, 8, 9, 12 or 15 characters long |
| IsoDates.FractionAfterHours | interpreter/core/models/prompt.py:29-30 | `12.500` reads as 12:00:00.500000 |
| IsoDates.FractionAfterMinutes | interpreter/core/models/prompt.py:29-30 | `12:30.500` reads as 12:30:00.500000 |
| IsoDates.RoundTrip | interpreter/core/models/prompt.py:18-30 | `fromisoformat(isoformat(d))` is d for every valid date-time |
| FileBrowser.ChildPath | interpreter/frontend/src/FileBrowser.js:8 | the path ends in `/name`. At the root it is `/name`; below a non-root path it is that path, `/`, the name |
| FileBrowser.ParentPath | interpreter/frontend/src/FileBrowser.js:22 | the parent path is never empty |
| FileBrowser.ParentOfRoot | interpreter/frontend/src/FileBrowser.js:22 | the parent of `/` is `/` |
| FileBrowser.ParentOfChild | interpreter/frontend/src/FileBrowser.js:8-22 | going into an entry whose name has no `/` and back returns to the non-empty starting path |
| FileBrowser.ClickTarget | interpreter/frontend/src/FileBrowser.js:5-18 | a click navigates exactly for directory objects, to their child path |
| FileBrowser.Rows | interpreter/frontend/src/FileBrowser.js:35-53 | the ".." row is shown exactly away from the root, and first. Then comes one row per array element, in order; without an array, the "no files" row alone |
| Seqs.Filter | interpreter/core/log_handler.py:44 | a list comprehension with a condition: the result is a subsequence, all of it kept, and every kept element as often as in the input |
| Seqs.SortDesc | interpreter/core/task_assignment.py:30 | `sort(key=..., reverse=True)`: a permutation sorted by descending key |
| Seqs.SortUniformKeys | interpreter/core/task_assignment.py:30 | when all keys are equal, the sort keeps the list unchanged, as Python's stable sort does |
| Text.JoinSplit | interpreter/frontend/src/FileBrowser.js:22 | joining the pieces of a split with the separator gives the string back |

## Left out

- Environments.Drifted: the drift is one unit up or down rather than 0.1, because state values
  are integers here. Its contract states only the direction of the change.
- State values are integers. Python's dictionaries hold any values, and the controllers'
  arithmetic on floats is not modelled.
- Environments.Environment.GetState: Python returns the state dictionary itself, so a caller that
  mutates it changes the room. Here the result is a value; that aliasing is not modelled.
- Skills: a skill's action is one of the two shipped controllers. Arbitrary callables are not
  modelled. The controllers read only the agent's name, so they receive the name.
- Agents.Agent.constructor: a non-empty skill list passed in is shared with the caller in Python.
  Here it is copied. An explicit empty list and `None` both give an empty skill list, as `skills if
  skills else []` does; the model has no separate `None` for it.
- Agents.Agent.ToDict: Python's dictionary holds the agent's own `state` and `parameters`
  dictionaries (interpreter/core/agent.py:92-93), so changing them through the dictionary changes
  the agent. Here they are values; that sharing is not modelled.
- Agents.Agent.FromDict: the agent keeps the `state` and `parameters` dictionaries of `data`
  itself, not copies (interpreter/core/agent.py:107-108). Here they are values; that sharing is not
  modelled.
- Agents.Agent.Act: Python returns the very list it appends to the history
  (interpreter/core/agent.py:56-57), so a caller that mutates it changes the history. Here the
  result is a value; that aliasing is not modelled.
- The `print` calls in `act` and in `chat_completion`'s error handler are left out.
- Agent dictionaries: `to_dict`'s nested values are typed records. `from_dict` reads a record in
  which an absent key is `None`. Values of other types under the same keys are not modelled.
- Anthropic: the SDK call (model `claude-2`, 1000 tokens) is the client's `complete` parameter. So
  are the API-key loading, the client construction and the module-level client instance.
- `test_api`'s `except` branch (interpreter/core/anthropic_client.py:42-43) cannot run, since
  `chat_completion` already catches every exception. It is not modelled.
- TaskAssignment: the agent the system works with has no definition in the source, so it is
  modelled abstractly. It has a capability list, an acceptance decision that may depend on earlier
  offers, and a result function.
- Task dictionaries carry only a name, a description and optional required capabilities. Other
  keys are ignored by the source and not modelled.
- Logs: only the one regular expression the parser uses is modelled, not Python's `re` module.
  The fallback timestamp (`datetime.now().strftime(...)`) is the parameter `now`.
- Upper- and lower-casing is ASCII only. Unicode case mapping is not modelled.
- IsoDates.FromIsoFormat and IsoDates.ParseTime: a time part with a UTC offset (`+HH:MM`,
  `-HH:MM`) is rejected here, although Python reads it into an aware date-time. The forms that
  only Python 3.11 and later accept are rejected too: week dates, basic format and `Z`.
- IsoDates.FromIsoFormat: for text outside the grammar, Python's message is "Invalid isoformat
  string: " followed by the `repr` of the text. The model returns the text itself; `repr`'s
  quoting and escaping are not modelled.
- Prompts: the identifier, project, name and content fields are integers, strings or `None`, not
  arbitrary Python objects.
- Prompts.NewPrompt: a missing timestamp is `None`. Other falsy values that `or` would also
  replace by the clock reading are not modelled.
- The clock readings (`datetime.now()`) are parameters.
- FileBrowser: rendering, icons, `console.log` and the `try`/`catch` around the handlers are left
  out. Only the paths and which rows appear are modelled.

## Findings

| source | as written | input that shows it | evidently intended | confidence | as-written member | corrected member |
|---|---|---|---|---|---|---|
| interpreter/core/log_handler.py:58-62 | `return self.logs[-n:]` | `get_recent_logs(0)` on a store with entries returns every entry, since `-0` is `0` | the docstring's "the n most recent logs": no entries for n = 0 | medium; not executed | Logs.RecentZeroReturnsAll | Logs.LastN |

=== FILE: agent.dfy ===
/** An agent: a named holder of skills that perceives an environment, acts on it by running its
    skills in order, keeps a history of what it did and judges the room it leaves behind. */
module Agents {
  import opened Basics
  import opened Text
  import opened Seqs
  import opened Environments
  import opened Skills

  /** A skill as `get_skills` lists it: `{"name": ..., "description": ...}`. */
  datatype SkillInfo = SkillInfo(name: string, description: string)

  /** The argument of `add_skill`: a `Skill` instance, or any other Python value. */
  datatype SkillArgument = SkillValue(skill: Skill) | OtherValue

  const NotASkill: string := "Skill must be an instance of the Skill class"
  const NoEnvironment: string := "Environment not set for the agent."
  const NothingToEvaluate: string := "No actions taken yet to evaluate."
  /** The `AttributeError` raised by `None.get_state()`. */
  const NoEnvironmentAttribute: string := "'NoneType' object has no attribute 'get_state'"
  const GoodVerdict: string := "Performance: Good. Maintaining optimal conditions."
  const PoorVerdict: string := "Performance: Needs improvement. Conditions are outside optimal range."

  /** A name as an f-string renders it: Python's `None` prints as `None`. */
  function Shown(name: Option<string>): string
  {
    match name
    case Some(n) => n
    case None => "None"
  }

  /** `get_skills`: one entry per skill, in order, holding its name and description. */
  function Described(skills: seq<Skill>): (r: seq<SkillInfo>)
    ensures |r| == |skills|
    ensures forall i :: 0 <= i < |r| ==> r[i].name == skills[i].name && r[i].description == skills[i].description
  {
    seq(|skills|, i requires 0 <= i < |skills| => SkillInfo(skills[i].name, skills[i].description))
  }

  /** `remove_skill`: the skills not named `skillName`, in their order; every skill of another
      name is kept as often as it occurs. */
  function WithoutSkill(skills: seq<Skill>, skillName: string): (r: seq<Skill>)
    ensures Subsequence(r, skills)
    ensures forall i :: 0 <= i < |r| ==> r[i].name != skillName
    ensures forall i :: 0 <= i < |skills| && skills[i].name != skillName ==>
              multiset(r)[skills[i]] == multiset(skills)[skills[i]]
  {
    Filter(skills, (s: Skill) => s.name != skillName)
  }

  /** Removing a name no skill has changes nothing. */
  lemma RemoveAbsentSkill(skills: seq<Skill>, skillName: string)
    requires forall i :: 0 <= i < |skills| ==> skills[i].name != skillName
    ensures WithoutSkill(skills, skillName) == skills
  {
    FilterKeepsAll(skills, (s: Skill) => s.name != skillName);
  }

  /** Removing a name twice is removing it once. */
  lemma RemoveSkillIdempotent(skills: seq<Skill>, skillName: string)
    ensures WithoutSkill(WithoutSkill(skills, skillName), skillName) == WithoutSkill(skills, skillName)
  {
    RemoveAbsentSkill(WithoutSkill(skills, skillName), skillName);
  }

  /** The messages of a run of skills and the environment state it leaves. */
  datatype Run = Run(messages: seq<string>, state: State)

  /** Each skill of `skills` run once, in order, by the agent named `agentName`, starting from
      `state`: one message per skill; only the temperature and humidity keys may change or
      appear. */
  function RunSkills(skills: seq<Skill>, agentName: string, state: State): (r: Run)
    ensures |r.messages| == |skills|
    ensures state.Keys <= r.state.Keys <= state.Keys + {TemperatureKey, HumidityKey}
    ensures forall k :: k in state && k != TemperatureKey && k != HumidityKey ==> r.state[k] == state[k]
    decreases |skills|
  {
    if |skills| == 0 then Run([], state)
    else
      var before := RunSkills(skills[..|skills| - 1], agentName, state);
      var c := ControllerOf(skills[|skills| - 1].action);
      assert c.key == TemperatureKey || c.key == HumidityKey;
      var a := Adjust(c, agentName, before.state);
      Run(before.messages + [a.message], Merged(before.state, a.written))
  }

  /** The `i`-th message of a run is what the `i`-th skill reports on the state the skills
      before it left: each skill runs once, in list order. */
  lemma {:induction false} RunInOrder(skills: seq<Skill>, agentName: string, state: State, i: nat)
    requires i < |skills|
    ensures RunSkills(skills, agentName, state).messages[i]
         == Adjust(ControllerOf(skills[i].action), agentName, RunSkills(skills[..i], agentName, state).state).message
    decreases |skills|
  {
    var n := |skills| - 1;
    if i < n {
      RunInOrder(skills[..n], agentName, state, i);
      assert skills[..n][..i] == skills[..i];
    } else {
      assert skills[..i] == skills[..n];
    }
  }

  /** The lines `- action` that `evaluate` lists, one per action. */
  function Bullets(actions: seq<string>): string
    decreases |actions|
  {
    if |actions| == 0 then "" else Bullets(actions[..|actions| - 1]) + "- " + actions[|actions| - 1] + "\n"
  }

  /** `evaluate`'s rule for optimal conditions, with a missing temperature read as 20 and a
      missing humidity as 50. */
  predicate Optimal(state: State)
    ensures TemperatureKey !in state && HumidityKey !in state ==> Optimal(state)
  {
    var t := Get(state, TemperatureKey, 20);
    var h := Get(state, HumidityKey, 50);
    19 <= t <= 23 && 40 <= h <= 60
  }

  /** The text `evaluate` returns for an agent named `agentName` whose last run produced
      `actions`, judged on `state`. */
  function Evaluation(agentName: string, actions: seq<string>, state: State): (r: string)
    ensures var header := EvaluationHeader(agentName); |header| <= |r| && r[..|header|] == header
    ensures Optimal(state) ==> |GoodVerdict| <= |r| && r[|r| - |GoodVerdict|..] == GoodVerdict
    ensures !Optimal(state) ==> |PoorVerdict| <= |r| && r[|r| - |PoorVerdict|..] == PoorVerdict
  {
    EvaluationHeader(agentName) + Bullets(actions) + (if Optimal(state) then GoodVerdict else PoorVerdict)
  }

  /** The first line of `evaluate`'s report. */
  function EvaluationHeader(agentName: string): string
  {
    "Last actions taken by " + agentName + ":\n"
  }

  /** The verdict is the good one exactly when the conditions are optimal, and the poor one
      exactly when they are not. */
  lemma EvaluationVerdict(agentName: string, actions: seq<string>, state: State)
    ensures var text := Evaluation(agentName, actions, state);
      && (Optimal(state) <==> |text| >= |GoodVerdict| && text[|text| - |GoodVerdict|..] == GoodVerdict)
      && (!Optimal(state) <==> |text| >= |PoorVerdict| && text[|text| - |PoorVerdict|..] == PoorVerdict)
  {
    var text := Evaluation(agentName, actions, state);
    var head := EvaluationHeader(agentName) + Bullets(actions);
    if Optimal(state) {
      assert text == head + GoodVerdict;
      assert text[|text| - |GoodVerdict|..] == GoodVerdict;
      if |text| >= |PoorVerdict| {
        assert text[|text| - 2] == 's' != PoorVerdict[|PoorVerdict| - 2];
      }
    } else {
      assert text == head + PoorVerdict;
      assert text[|text| - |PoorVerdict|..] == PoorVerdict;
      assert text[|text| - 2] == 'e' != GoodVerdict[|GoodVerdict| - 2];
    }
  }

  /** The bullet of every action is a prefix extension of the bullets before it. */
  lemma {:induction false} BulletsPrefix(actions: seq<string>, i: nat)
    requires i < |actions|
    ensures Bullets(actions[..i]) + "- " + actions[i] + "\n" <= Bullets(actions)
    decreases |actions|
  {
    var n := |actions| - 1;
    if i < n {
      BulletsPrefix(actions[..n], i);
      assert actions[..n][..i] == actions[..i];
      assert actions[..n][i] == actions[i];
    } else {
      assert actions[..i] == actions[..n];
    }
  }

  /** The evaluation lists every action of the last run on a line `- action`. */
  lemma EvaluationListsActions(agentName: string, actions: seq<string>, state: State, i: nat)
    requires i < |actions|
    ensures Contains(Evaluation(agentName, actions, state), "- " + actions[i] + "\n")
  {
    var line := "- " + actions[i] + "\n";
    var before := Bullets(actions[..i]);
    BulletsPrefix(actions, i);
    var after := Bullets(actions)[|before + line|..];
    assert Bullets(actions) == before + line + after;
    ContainsConcat(before, line + after, line);
    ContainsConcat(line, after, line);
    assert line <= line + after;
    var head := EvaluationHeader(agentName);
    var verdict := if Optimal(state) then GoodVerdict else PoorVerdict;
    assert before + line + after == before + (line + after);
    ContainsConcat(head, Bullets(actions), line);
    ContainsConcat(head + Bullets(actions), verdict, line);
  }

  /** A room the two controllers have brought into their bands is judged optimal: the bands
      20..22 and 40..60 lie inside the evaluation's ranges 19..23 and 40..60. */
  lemma ControlledRoomIsOptimal(state: State)
    requires Thermostat.low <= Reading(Thermostat, state) <= Thermostat.high
    requires Humidistat.low <= Reading(Humidistat, state) <= Humidistat.high
    ensures Optimal(state)
  {
  }

  /** `to_dict`: the agent's fields, its skills as listed by `get_skills`, its parent and
      sub-agents by id. */
  datatype AgentDict = AgentDict(
    id: Option<int>, name: Option<string>, description: string, prompt: string, aiModel: string,
    skills: seq<SkillInfo>, parent: Option<int>, subAgents: seq<Option<int>>,
    state: State, parameters: State)

  /** The dictionary `from_dict` reads: `None` stands for a key it lacks (or, for `id` and
      `name`, a key holding `None`). */
  datatype AgentData = AgentData(
    id: Option<int>, name: Option<string>, description: Option<string>, prompt: Option<string>,
    aiModel: Option<string>, state: Option<State>, parameters: Option<State>)

  /** `data.get(key, default)`. */
  function OrElse<T>(value: Option<T>, default: T): T
  {
    match value
    case Some(v) => v
    case None => default
  }

  /** What `to_dict` reports for an agent `from_dict` builds from `data`: the stored fields with
      their defaults, no skills, no parent and no sub-agents. */
  function Loaded(data: AgentData): (d: AgentDict)
    ensures d.skills == [] && d.parent == None && d.subAgents == []
    ensures d.id == data.id && d.name == data.name
    ensures data.description.None? ==> d.description == ""
    ensures data.prompt.None? ==> d.prompt == ""
    ensures data.aiModel.None? ==> d.aiModel == ""
    ensures data.state.None? ==> d.state == map[]
    ensures data.parameters.None? ==> d.parameters == map[]
    ensures data.description.Some? ==> d.description == data.description.value
    ensures data.prompt.Some? ==> d.prompt == data.prompt.value
    ensures data.aiModel.Some? ==> d.aiModel == data.aiModel.value
    ensures data.state.Some? ==> d.state == data.state.value
    ensures data.parameters.Some? ==> d.parameters == data.parameters.value
  {
    AgentDict(data.id, data.name, OrElse(data.description, ""), OrElse(data.prompt, ""), OrElse(data.aiModel, ""),
      [], None, [], OrElse(data.state, map[]), OrElse(data.parameters, map[]))
  }

  /** The dictionary `to_dict` wrote, as `from_dict` reads it: every key present. */
  function Stored(d: AgentDict): AgentData
  {
    AgentData(d.id, d.name, Some(d.description), Some(d.prompt), Some(d.aiModel), Some(d.state), Some(d.parameters))
  }

  /** `from_dict(to_dict(a))` keeps id, name, description, prompt, model, state and parameters
      and comes back with no skills, no parent and no sub-agents. */
  lemma DictRoundTrip(d: AgentDict)
    ensures Loaded(Stored(d)) == d.(skills := [], parent := None, subAgents := [])
  {
  }

  /** Every field of an agent at once, to say what a method leaves alone. */
  datatype AgentFields = AgentFields(
    id: Option<int>, name: Option<string>, description: string, prompt: string, aiModel: string,
    skills: seq<Skill>, parent: Agent?, subAgents: seq<Agent>, state: State, parameters: State,
    environment: Environment?, performanceHistory: seq<seq<string>>)

  class Agent {
    var id: Option<int>
    var name: Option<string>
    var description: string
    var prompt: string
    var aiModel: string
    var skills: seq<Skill>
    var parent: Agent?
    var subAgents: seq<Agent>
    var state: State
    var parameters: State
    var environment: Environment?
    var performanceHistory: seq<seq<string>>

    function Fields(): AgentFields
      reads this
    {
      AgentFields(id, name, description, prompt, aiModel, skills, parent, subAgents, state, parameters,
        environment, performanceHistory)
    }

    /** `Agent(name, description, prompt, ai_model, skills, parent)`: no id yet, the given
        fields, and empty sub-agents, state, parameters and history, no environment. */
    constructor (name: Option<string>, description: string := "", prompt: string := "", aiModel: string := "",
                 skills: seq<Skill> := [], parent: Agent? := null)
      ensures Fields() == AgentFields(None, name, description, prompt, aiModel, skills, parent, [], map[], map[], null, [])
    {
      this.id := None;
      this.name := name;
      this.description := description;
      this.prompt := prompt;
      this.aiModel := aiModel;
      this.skills := skills;
      this.parent := parent;
      this.subAgents := [];
      this.state := map[];
      this.parameters := map[];
      this.environment := null;
      this.performanceHistory := [];
    }

    /** `add_skill`: a skill is appended, duplicates allowed; anything else raises `ValueError`
        and changes nothing. */
    method AddSkill(candidate: SkillArgument) returns (outcome: Outcome<string>)
      modifies this
      ensures candidate.SkillValue? ==> outcome == Pass && Fields() == old(Fields()).(skills := old(skills) + [candidate.skill])
      ensures candidate.OtherValue? ==> outcome == Fail(NotASkill) && Fields() == old(Fields())
    {
      match candidate
      case SkillValue(skill) =>
        skills := skills + [skill];
        outcome := Pass;
      case OtherValue =>
        outcome := Fail(NotASkill);
    }

    /** `remove_skill`: drops every skill named `skillName`, keeping the rest in order. */
    method RemoveSkill(skillName: string)
      modifies this
      ensures Fields() == old(Fields()).(skills := WithoutSkill(old(skills), skillName))
    {
      skills := WithoutSkill(skills, skillName);
    }

    /** `get_skills`. */
    function GetSkills(): (r: seq<SkillInfo>)
      reads this
      ensures |r| == |skills|
      ensures forall i :: 0 <= i < |r| ==> r[i] == SkillInfo(skills[i].name, skills[i].description)
    {
      Described(skills)
    }

    /** `add_sub_agent`: the child becomes the last sub-agent and gets this agent as its parent;
        nothing else changes on either side. */
    method AddSubAgent(child: Agent)
      modifies this, child
      ensures child.parent == this && subAgents == old(subAgents) + [child]
      ensures child != this ==> Fields() == old(Fields()).(subAgents := old(subAgents) + [child])
      ensures child != this ==> child.Fields() == old(child.Fields()).(parent := this)
      ensures child == this ==> Fields() == old(Fields()).(parent := this, subAgents := old(subAgents) + [child])
    {
      child.parent := this;
      subAgents := subAgents + [child];
    }

    /** `set_environment`. */
    method SetEnvironment(env: Environment?)
      modifies this
      ensures Fields() == old(Fields()).(environment := env)
    {
      environment := env;
    }

    /** `perceive`: merges the environment's state into the agent's, the environment's values
        winning on shared keys; without an environment it raises `ValueError`. */
    method Perceive() returns (outcome: Outcome<string>)
      modifies this
      ensures old(environment) == null ==> outcome == Fail(NoEnvironment) && Fields() == old(Fields())
      ensures old(environment) != null ==>
        outcome == Pass && Fields() == old(Fields()).(state := Merged(old(state), old(environment.state)))
    {
      if environment == null {
        return Fail(NoEnvironment);
      }
      var envState := environment.GetState();
      state := state + envState;
      outcome := Pass;
    }

    /** `act`: runs every skill once, in order, against the environment, returns their messages
        and records them as one new history entry; without an environment it raises
        `ValueError`. */
    method Act() returns (result: Result<seq<string>, string>)
      modifies this, environment
      ensures old(environment) == null ==> result == Failure(NoEnvironment) && Fields() == old(Fields())
      ensures old(environment) != null ==>
        var run := RunSkills(old(skills), Shown(old(name)), old(environment.state));
        && result == Success(run.messages)
        && old(environment).state == run.state
        && Fields() == old(Fields()).(performanceHistory := old(performanceHistory) + [run.messages])
    {
      if environment == null {
        return Failure(NoEnvironment);
      }
      var env := environment;
      var actions: seq<string> := [];
      var i := 0;
      while i < |skills|
        invariant 0 <= i <= |skills|
        invariant Fields() == old(Fields())
        invariant actions == RunSkills(skills[..i], Shown(name), old(env.state)).messages
        invariant env.state == RunSkills(skills[..i], Shown(name), old(env.state)).state
      {
        assert skills[..i + 1][..i] == skills[..i];
        var message := Execute(skills[i], Shown(name), env);
        actions := actions + [message];
        i := i + 1;
      }
      assert skills[..i] == skills;
      performanceHistory := performanceHistory + [actions];
      result := Success(actions);
    }

    /** `evaluate`: with no history, a fixed message; otherwise the last run's actions and the
        verdict on the environment, which raises `AttributeError` when the environment has
        since been unset. */
    method Evaluate() returns (result: Result<string, string>)
      ensures performanceHistory == [] ==> result == Success(NothingToEvaluate)
      ensures performanceHistory != [] && environment == null ==> result == Failure(NoEnvironmentAttribute)
      ensures performanceHistory != [] && environment != null ==>
        result == Success(Evaluation(Shown(name), performanceHistory[|performanceHistory| - 1], environment.state))
    {
      if performanceHistory == [] {
        return Success(NothingToEvaluate);
      }
      var lastActions := performanceHistory[|performanceHistory| - 1];
      var evaluation := EvaluationHeader(Shown(name));
      var i := 0;
      while i < |lastActions|
        invariant 0 <= i <= |lastActions|
        invariant evaluation == EvaluationHeader(Shown(name)) + Bullets(lastActions[..i])
      {
        assert lastActions[..i + 1][..i] == lastActions[..i];
        evaluation := evaluation + "- " + lastActions[i] + "\n";
        i := i + 1;
      }
      assert lastActions[..i] == lastActions;
      if environment == null {
        return Failure(NoEnvironmentAttribute);
      }
      var envState := environment.GetState();
      var temp := Get(envState, TemperatureKey, 20);
      var humidity := Get(envState, HumidityKey, 50);
      if 19 <= temp <= 23 && 40 <= humidity <= 60 {
        evaluation := evaluation + GoodVerdict;
      } else {
        evaluation := evaluation + PoorVerdict;
      }
      result := Success(evaluation);
    }

    /** `to_dict`. */
    function ToDict(): (d: AgentDict)
      reads this, parent, subAgents
      ensures d.id == id && d.name == name && d.description == description && d.prompt == prompt
      ensures d.aiModel == aiModel && d.state == state && d.parameters == parameters
      ensures d.skills == GetSkills()
      ensures d.parent == (if parent == null then None else parent.id)
      ensures |d.subAgents| == |subAgents| && forall i :: 0 <= i < |subAgents| ==> d.subAgents[i] == subAgents[i].id
    {
      AgentDict(id, name, description, prompt, aiModel, GetSkills(),
        if parent == null then None else parent.id,
        seq(|subAgents|, i requires 0 <= i < |subAgents| reads this, subAgents => subAgents[i].id),
        state, parameters)
    }

    /** `from_dict`: a new agent holding the stored fields, with defaults for missing keys, and
        no skills, parent, sub-agents, environment or history. */
    static method FromDict(data: AgentData) returns (agent: Agent)
      ensures fresh(agent)
      ensures agent.ToDict() == Loaded(data)
      ensures agent.environment == null && agent.performanceHistory == []
    {
      agent := new Agent(data.name, OrElse(data.description, ""), OrElse(data.prompt, ""), OrElse(data.aiModel, ""), [], null);
      agent.id := data.id;
      agent.state := OrElse(data.state, map[]);
      agent.parameters := OrElse(data.parameters, map[]);
    }
  }
}

=== FILE: anthropic_client.dfy ===
/** The client for the Anthropic completion API: chat messages are serialised into a single
    `Human:`/`Assistant:` prompt, the completion call turns failures into `None`, and the API
    self-test decides success from the reply text. */
module Anthropic {
  import opened Basics
  import opened Text

  /** A chat message `{"role": ..., "content": ...}`. */
  datatype Message = Message(role: string, content: string)

  const HumanPrefix: string := "\n\nHuman: "
  const AssistantPrefix: string := "\n\nAssistant: "
  /** The closing cue that asks the model to answer. */
  const Cue: string := "\n\nAssistant:"

  /** What one message adds to the prompt: user and assistant messages add their content after
      the matching prefix; any other role adds nothing. */
  function Turn(m: Message): (r: string)
    ensures r == "" <==> !Spoken(m)
    ensures m.role == "user" ==> HumanPrefix <= r && r[|HumanPrefix|..] == m.content
    ensures m.role == "assistant" ==> AssistantPrefix <= r && r[|AssistantPrefix|..] == m.content
  {
    if m.role == "user" then HumanPrefix + m.content
    else if m.role == "assistant" then AssistantPrefix + m.content
    else ""
  }

  /** The turns of the messages, in order. */
  function Turns(messages: seq<Message>): (r: seq<string>)
    ensures |r| == |messages| && forall i :: 0 <= i < |r| ==> r[i] == Turn(messages[i])
  {
    seq(|messages|, i requires 0 <= i < |messages| => Turn(messages[i]))
  }

  /** Whether a message takes part in the conversation the prompt records. */
  predicate Spoken(m: Message)
  {
    m.role == "user" || m.role == "assistant"
  }

  /** The prompt before the closing cue. */
  function PromptBody(messages: seq<Message>): string
  {
    Concat(Turns(messages))
  }

  /** The body is empty exactly when no message is from the user or the assistant. */
  lemma PromptBodyEmpty(messages: seq<Message>)
    ensures PromptBody(messages) == "" <==> forall m :: m in messages ==> !Spoken(m)
  {
    var turns := Turns(messages);
    ConcatEmpty(turns);
    assert (forall i :: 0 <= i < |turns| ==> turns[i] == "") <==> forall m :: m in messages ==> !Spoken(m);
  }

  /** The body of two message lists one after the other is the two bodies one after the other. */
  lemma PromptBodyAppend(xs: seq<Message>, ys: seq<Message>)
    ensures PromptBody(xs + ys) == PromptBody(xs) + PromptBody(ys)
  {
    assert Turns(xs + ys) == Turns(xs) + Turns(ys);
    ConcatAppend(Turns(xs), Turns(ys));
  }

  /** One more message adds its turn at the end of the body. */
  lemma PromptBodySnoc(ms: seq<Message>, m: Message)
    ensures PromptBody(ms + [m]) == PromptBody(ms) + Turn(m)
  {
    assert Turns(ms + [m]) == Turns(ms) + [Turn(m)];
    ConcatSnoc(Turns(ms), Turn(m));
  }

  /** Messages of other roles, such as `system`, leave the body unchanged wherever they occur. */
  lemma OtherRoleIgnored(xs: seq<Message>, m: Message, ys: seq<Message>)
    requires m.role != "user" && m.role != "assistant"
    ensures PromptBody(xs + [m] + ys) == PromptBody(xs + ys)
  {
    var body := PromptBody(xs);
    assert Turn(m) == "";
    assert Turns([m]) == [""];
    assert Concat([""]) == Concat([]) + "";
    PromptBodyAppend(xs, [m]);
    assert PromptBody(xs + [m]) == body + "" == body;
    PromptBodyAppend(xs + [m], ys);
    PromptBodyAppend(xs, ys);
  }

  /** A single message from the user becomes `\n\nHuman: content\n\nAssistant:`. */
  lemma SingleUserMessage(content: string)
    ensures PromptBody([Message("user", content)]) + Cue == "\n\nHuman: " + content + "\n\nAssistant:"
  {
    PromptBodySnoc([], Message("user", content));
    assert [] + [Message("user", content)] == [Message("user", content)];
  }

  /** The fixed message `test_api` sends. */
  const TestMessage: seq<Message> :=
    [Message("user", "Hello, Claude. Please respond with 'API test successful' if you receive this message.")]

  const SuccessPhrase: string := "API test successful"
  const SuccessReport: string := "Anthropic API test successful"

  /** How Python renders the reply in `f"Unexpected response: {response}"`. */
  function ReplyText(reply: Option<string>): string
  {
    match reply
    case Some(text) => text
    case None => "None"
  }

  /** `test_api`'s decision: a reply that is present, non-empty and contains the phrase. */
  predicate Successful(reply: Option<string>)
  {
    reply.Some? && reply.value != "" && Contains(reply.value, SuccessPhrase)
  }

  /** A present reply containing the phrase is non-empty, so `test_api` succeeds exactly when the
      reply is present and contains the phrase. */
  lemma SuccessIffPhrase(reply: Option<string>)
    ensures Successful(reply) <==> reply.Some? && Contains(reply.value, SuccessPhrase)
  {
    if reply.Some? && Contains(reply.value, SuccessPhrase) {
      ContainsIffOccurs(reply.value, SuccessPhrase);
      var i :| OccursAt(reply.value, SuccessPhrase, i);
    }
  }

  class AnthropicClient {
    /** The SDK call `client.completions.create(model="claude-2", prompt=...,
        max_tokens_to_sample=1000).completion` for a prompt: the completion text, or `Failure`
        with the exception's text when the call raises. */
    const complete: string -> Result<string, string>

    constructor (complete: string -> Result<string, string>)
      ensures this.complete == complete
    {
      this.complete := complete;
    }

    /** `_convert_messages_to_prompt`: the turns of the messages in order, then the cue. */
    method ConvertMessagesToPrompt(messages: seq<Message>) returns (prompt: string)
      ensures prompt == PromptBody(messages) + Cue
    {
      prompt := "";
      var i := 0;
      while i < |messages|
        invariant 0 <= i <= |messages|
        invariant prompt == PromptBody(messages[..i])
      {
        var message := messages[i];
        assert messages[..i + 1] == messages[..i] + [message];
        PromptBodySnoc(messages[..i], message);
        ghost var before := prompt;
        if message.role == "user" {
          prompt := prompt + (HumanPrefix + message.content);
        } else if message.role == "assistant" {
          prompt := prompt + (AssistantPrefix + message.content);
        } else {
          assert before + Turn(message) == before;
        }
        assert prompt == before + Turn(message);
        i := i + 1;
      }
      assert messages[..i] == messages;
      prompt := prompt + Cue;
    }

    /** `chat_completion`: the completion for the converted prompt; an exception raised by the
        call is caught and becomes `None`. */
    method ChatCompletion(messages: seq<Message>) returns (reply: Option<string>)
      ensures var outcome := complete(PromptBody(messages) + Cue);
        && (reply.Some? <==> outcome.Success?)
        && (outcome.Success? ==> reply.value == outcome.value)
    {
      var prompt := ConvertMessagesToPrompt(messages);
      var response := complete(prompt);
      match response
      case Success(completion) =>
        reply := Some(completion);
      case Failure(_) =>
        reply := None;
    }

    /** `test_api`: success with a fixed report when the reply is present and contains the
        phrase; otherwise failure with the reply (or `None`) quoted. */
    method TestApi() returns (ok: bool, report: string)
      ensures var outcome := complete(PromptBody(TestMessage) + Cue);
        && (ok <==> outcome.Success? && Contains(outcome.value, SuccessPhrase))
        && (ok ==> report == SuccessReport)
        && (!ok && outcome.Success? ==> report == "Unexpected response: " + outcome.value)
        && (outcome.Failure? ==> report == "Unexpected response: None")
    {
      var response := ChatCompletion(TestMessage);
      SuccessIffPhrase(response);
      if response.Some? && response.value != "" && Contains(response.value, SuccessPhrase) {
        ok, report := true, SuccessReport;
      } else {
        ok, report := false, "Unexpected response: " + ReplyText(response);
      }
    }
  }
}

=== FILE: basics.dfy ===
/** Failure-carrying wrappers shared by the modules of this model. */
module Basics {

  /** A value that may be absent: Python's `None`, or a missing dictionary key. */
  datatype Option<+T> = None | Some(value: T)

  /** The outcome of an operation that raises in the source instead of returning. */
  datatype Result<+T, +E> = Success(value: T) | Failure(error: E)

  /** The outcome of an operation that returns nothing but may raise. */
  datatype Outcome<+E> = Pass | Fail(error: E)
}

=== FILE: environment.dfy ===
/** The simulated room the agents act on: a key-value state that drifts over time and that
    skills overwrite key by key. */
module Environments {

  /** The state dictionary. Values are integers in this model; Python stores whatever numbers
      the caller puts in, and the drift below makes them floats. */
  type State = map<string, int>

  const TemperatureKey: string := "temperature"
  const HumidityKey: string := "humidity"

  /** Python's `state.get(key, default)`. */
  function Get(state: State, key: string, default: int): int
  {
    if key in state then state[key] else default
  }

  /** Python's `state.update(new_state)`: every key of `update` takes its new value, every other
      key keeps its old one, and no key is removed. */
  function Merged(state: State, update: State): (r: State)
    ensures r.Keys == state.Keys + update.Keys
    ensures forall k :: k in update ==> r[k] == update[k]
    ensures forall k :: k in state && k !in update ==> r[k] == state[k]
  {
    state + update
  }

  /** What `update` does to a state: an existing temperature goes up, an existing humidity goes
      down, and nothing else changes; no key appears or disappears. The size of the step is a
      float in the source and one unit here. */
  function Drifted(state: State): (r: State)
    ensures r.Keys == state.Keys
    ensures TemperatureKey in state ==> r[TemperatureKey] > state[TemperatureKey]
    ensures HumidityKey in state ==> r[HumidityKey] < state[HumidityKey]
    ensures forall k :: k in state && k != TemperatureKey && k != HumidityKey ==> r[k] == state[k]
  {
    var warmer := if TemperatureKey in state then state[TemperatureKey := state[TemperatureKey] + 1] else state;
    if HumidityKey in warmer then warmer[HumidityKey := warmer[HumidityKey] - 1] else warmer
  }

  /** A state with neither key does not drift. */
  lemma DriftWithoutClimate(state: State)
    requires TemperatureKey !in state && HumidityKey !in state
    ensures Drifted(state) == state
  {
    var r := Drifted(state);
    assert forall k :: k in r <==> k in state;
    assert forall k :: k in r ==> r[k] == state[k];
  }

  /** Setting the same values twice is the same as setting them once. */
  lemma MergeIdempotent(state: State, update: State)
    ensures Merged(Merged(state, update), update) == Merged(state, update)
  {
    var once := Merged(state, update);
    var twice := Merged(once, update);
    assert forall k :: k in twice <==> k in once;
    assert forall k :: k in twice ==> twice[k] == once[k];
  }

  /** Two updates in a row are one update with the later values winning. */
  lemma MergeTwice(state: State, first: State, second: State)
    ensures Merged(Merged(state, first), second) == Merged(state, Merged(first, second))
  {
    var lhs := Merged(Merged(state, first), second);
    var rhs := Merged(state, Merged(first, second));
    assert forall k :: k in lhs <==> k in rhs;
    assert forall k :: k in lhs ==> lhs[k] == rhs[k];
  }

  class Environment {
    var state: State

    /** A new environment has an empty state. */
    constructor ()
      ensures state == map[]
    {
      state := map[];
    }

    /** `update`: one step of drift. */
    method Update()
      modifies this
      ensures state == Drifted(old(state))
    {
      if TemperatureKey in state {
        state := state[TemperatureKey := state[TemperatureKey] + 1];
      }
      if HumidityKey in state {
        state := state[HumidityKey := state[HumidityKey] - 1];
      }
    }

    /** `get_state`: the current state. */
    function GetState(): (r: State)
      reads this
      ensures r == state
    {
      state
    }

    /** `set_state`: merges `newState` into the state. */
    method SetState(newState: State)
      modifies this
      ensures state == Merged(old(state), newState)
    {
      state := state + newState;
    }
  }
}

=== FILE: file_browser.dfy ===
/** The path rules of the front end's file browser: the path a click on an entry
    navigates to, the path the ".." entry navigates to, and which rows are shown. */
module FileBrowser {
  import opened Basics
  import opened Text

  /** An element of the `files` array: an object with a name and a type, or anything else. */
  datatype FileItem = FileObject(name: string, kind: string) | NotAnObject

  /** A rendered row of the listing. */
  datatype Row = BackRow | EntryRow(item: FileItem) | NoFilesRow

  const Root: string := "/"
  const Directory: string := "directory"

  /** The path of entry `name` inside `current`. */
  function ChildPath(current: string, name: string): (p: string)
    ensures |p| > |name| && p[|p| - |name| - 1..] == "/" + name
    ensures current == Root ==> p == "/" + name
    ensures current != Root ==> |p| == |current| + 1 + |name| && p[..|current|] == current
  {
    if current == Root then "/" + name else current + "/" + name
  }

  /** The path one level up: drop the last `/`-separated piece; an empty result becomes the root. */
  function ParentPath(current: string): (p: string)
    ensures p != ""
  {
    var pieces := Split(current, '/');
    var up := Join(pieces[..|pieces| - 1], "/");
    if up == "" then Root else up
  }

  /** The root is its own parent. */
  lemma ParentOfRoot()
    ensures ParentPath(Root) == Root
  {
    assert Split(Root, '/') == ["", ""];
  }

  /** Going into an entry whose name has no `/` and coming back returns to the starting path. */
  lemma {:induction false} ParentOfChild(current: string, name: string)
    requires current != "" && '/' !in name
    ensures ParentPath(ChildPath(current, name)) == current
  {
    if current == Root {
      assert ChildPath(current, name) == "" + ['/'] + name;
      SplitAppend("", '/', name);
      assert Split("", '/') == [""];
    } else {
      assert ChildPath(current, name) == current + ['/'] + name;
      SplitAppend(current, '/', name);
      var pieces := Split(current, '/') + [name];
      assert pieces[..|pieces| - 1] == Split(current, '/');
      JoinSplit(current, '/');
    }
  }

  /** The path a click on `item` hands to `onFileSelect`, if any: only directories navigate.
      A click on an element that is not an object navigates nowhere either: for `null` or
      `undefined` reading `file.name` throws and the handler's `catch` logs the error, and for
      any other primitive `file.type` is not "directory", so the handler only logs the path. */
  function ClickTarget(current: string, item: FileItem): (target: Option<string>)
    ensures target.Some? <==> item.FileObject? && item.kind == Directory
    ensures target.Some? ==> target.value == ChildPath(current, item.name)
  {
    match item
    case FileObject(name, kind) =>
      if kind == Directory then Some(ChildPath(current, name)) else None
    case NotAnObject => None
  }

  /** The rows of the listing: the ".." row away from the root, then one row per element of
      `files` when it is an array (`Some`), or a single notice otherwise. */
  function Rows(current: string, files: Option<seq<FileItem>>): (rows: seq<Row>)
    ensures BackRow in rows <==> current != Root
    ensures current != Root ==> rows[0] == BackRow
    ensures files.Some? ==> |rows| == |files.value| + (if current != Root then 1 else 0)
    ensures files.Some? ==> forall i :: 0 <= i < |files.value| ==>
              rows[i + |rows| - |files.value|] == EntryRow(files.value[i])
    ensures files.None? ==> |rows| == 1 + (if current != Root then 1 else 0) && rows[|rows| - 1] == NoFilesRow
  {
    var back := if current != Root then [BackRow] else [];
    match files
    case Some(items) => back + seq(|items|, i requires 0 <= i < |items| => EntryRow(items[i]))
    case None => back + [NoFilesRow]
  }
}

=== FILE: iso_dates.dfy ===
/** Naive date-times and their ISO 8601 text form, as Python's `datetime.isoformat()` writes it
    and `datetime.fromisoformat()` reads it back. */
module IsoDates {
  import opened Basics
  import opened Text

  /** The fields of a naive `datetime`. */
  datatype Moment = Moment(year: int, month: int, day: int, hour: int, minute: int, second: int, microsecond: int)

  predicate LeapYear(y: int)
  {
    y % 4 == 0 && (y % 100 != 0 || y % 400 == 0)
  }

  function DaysInMonth(y: int, m: int): int
    requires 1 <= m <= 12
  {
    if m == 2 then (if LeapYear(y) then 29 else 28)
    else if m == 4 || m == 6 || m == 9 || m == 11 then 30
    else 31
  }

  /** The ranges the `datetime` constructor enforces on the date fields. */
  predicate ValidDate(m: Moment)
  {
    && 1 <= m.year <= 9999
    && 1 <= m.month <= 12
    && 1 <= m.day <= DaysInMonth(m.year, m.month)
  }

  /** The ranges the `datetime` constructor enforces. */
  predicate ValidMoment(m: Moment)
  {
    && ValidDate(m)
    && 0 <= m.hour < 24
    && 0 <= m.minute < 60
    && 0 <= m.second < 60
    && 0 <= m.microsecond < 1000000
  }

  type DateTime = m: Moment | ValidMoment(m) witness Moment(1, 1, 1, 0, 0, 0, 0)

  function Pow10(n: nat): nat
  {
    if n == 0 then 1 else 10 * Pow10(n - 1)
  }

  predicate IsDigit(c: char)
  {
    '0' <= c <= '9'
  }

  predicate AllDigits(s: string)
  {
    forall i :: 0 <= i < |s| ==> IsDigit(s[i])
  }

  /** The number a string of decimal digits denotes. */
  function DigitsValue(s: string): nat
    requires AllDigits(s)
  {
    if |s| == 0 then 0
    else DigitsValue(s[..|s| - 1]) * 10 + (s[|s| - 1] as int - '0' as int)
  }

  /** `n` in exactly `width` decimal digits, with leading zeros (`%0*d` for a number that fits). */
  function Padded(n: nat, width: nat): (r: string)
    ensures |r| == width && AllDigits(r)
  {
    if width == 0 then [] else Padded(n / 10, width - 1) + [DigitChar(n % 10)]
  }

  /** A number that fits in the width reads back as itself. */
  lemma {:induction false} PaddedValue(n: nat, width: nat)
    requires n < Pow10(width)
    ensures DigitsValue(Padded(n, width)) == n
  {
    if width > 0 {
      var r := Padded(n, width);
      assert r[..|r| - 1] == Padded(n / 10, width - 1);
      PaddedValue(n / 10, width - 1);
    }
  }

  /** The date part `YYYY-MM-DD`. */
  function DateText(d: DateTime): (r: string)
    ensures |r| == 10
  {
    Padded(d.year, 4) + "-" + Padded(d.month, 2) + "-" + Padded(d.day, 2)
  }

  /** `HH:MM:SS`. */
  function ClockText(d: DateTime): (r: string)
    ensures |r| == 8
  {
    Padded(d.hour, 2) + ":" + Padded(d.minute, 2) + ":" + Padded(d.second, 2)
  }

  /** The time part: the clock, then `.ffffff` when the microseconds are not zero. */
  function TimeText(d: DateTime): (r: string)
    ensures |r| == if d.microsecond == 0 then 8 else 15
  {
    if d.microsecond == 0 then ClockText(d) else ClockText(d) + "." + Padded(d.microsecond, 6)
  }

  /** The number written in `s[i..i + n]`, when those are all digits. */
  function Field(s: string, i: nat, n: nat): Option<nat>
  {
    if i + n <= |s| && AllDigits(s[i..i + n]) then Some(DigitsValue(s[i..i + n])) else None
  }

  /** `datetime.isoformat()` for a naive date-time: the date, `T`, then the time. */
  function IsoFormat(d: DateTime): (r: string)
    ensures |r| == if d.microsecond == 0 then 19 else 26
  {
    DateText(d) + "T" + TimeText(d)
  }

  /** What `isoformat` writes: `YYYY-MM-DDTHH:MM:SS`, followed by `.ffffff` when the
      microseconds are not zero, every field zero-padded to its width. */
  lemma IsoFormatLayout(d: DateTime)
    ensures var r := IsoFormat(d);
      && r[4] == '-' && r[7] == '-' && r[10] == 'T' && r[13] == ':' && r[16] == ':'
      && (d.microsecond != 0 ==> r[19] == '.')
    ensures var r := IsoFormat(d);
      && Field(r, 0, 4) == Some(d.year as nat) && Field(r, 5, 2) == Some(d.month as nat)
      && Field(r, 8, 2) == Some(d.day as nat)
    ensures var r := IsoFormat(d);
      && Field(r, 11, 2) == Some(d.hour as nat) && Field(r, 14, 2) == Some(d.minute as nat)
      && Field(r, 17, 2) == Some(d.second as nat)
    ensures d.microsecond != 0 ==> Field(IsoFormat(d), 20, 6) == Some(d.microsecond as nat)
  {
    var date, clock, time := DateText(d), ClockText(d), TimeText(d);
    var r := IsoFormat(d);
    assert r == date + "T" + time;
    DateFields(d);
    ClockFields(d);
    assert time[..8] == clock;
    assert r[0..4] == date[0..4] && r[5..7] == date[5..7] && r[8..10] == date[8..10];
    assert r[11..13] == clock[0..2] && r[14..16] == clock[3..5] && r[17..19] == clock[6..8];
    if d.microsecond != 0 {
      assert r[20..26] == Padded(d.microsecond, 6);
      PaddedValue(d.microsecond, 6);
    }
  }

  /** The fraction that starts at `t[i]` and runs to the end: three digits count as
      milliseconds, six as microseconds, any other length is refused. */
  function Fraction(t: string, i: nat): (r: Option<nat>)
    ensures r.Some? ==> |t| == i + 3 || |t| == i + 6
    ensures |t| == i + 6 ==> r == Field(t, i, 6)
    ensures |t| == i + 3 ==> r == (if Field(t, i, 3).Some? then Some(Field(t, i, 3).value * 1000) else None)
  {
    if |t| == i + 6 then Field(t, i, 6)
    else if |t| == i + 3 && Field(t, i, 3).Some? then Some(Field(t, i, 3).value * 1000)
    else None
  }

  /** The clock fields of a time part, read as the C parser does: two-digit hours, then
      optionally `:` and two-digit minutes, then optionally `:` and two-digit seconds; a `.`
      after any of the three fields, or a `:` after the seconds, starts a fraction of three or
      six digits that runs to the end. Missing fields are zero. */
  function ParseTime(t: string): (r: Option<(nat, nat, nat, nat)>)
    ensures r.Some? ==> |t| in {2, 5, 6, 8, 9, 12, 15}
    ensures r.Some? ==> Field(t, 0, 2) == Some(r.value.0)
    ensures |t| == 2 ==> (r.Some? <==> Field(t, 0, 2).Some?)
    ensures |t| == 5 ==> (r.Some? <==> Field(t, 0, 2).Some? && t[2] == ':' && Field(t, 3, 2).Some?)
    ensures |t| == 8 ==> (r.Some? <==> (Field(t, 0, 2).Some? && t[2] == ':' && Field(t, 3, 2).Some?
      && t[5] == ':' && Field(t, 6, 2).Some?))
    ensures r.Some? && |t| in {2, 5, 8} ==> r.value.3 == 0
    ensures r.Some? && |t| == 2 ==> r.value.1 == 0 && r.value.2 == 0
    ensures r.Some? && |t| > 2 && t[2] == '.' ==> r.value.1 == 0 && r.value.2 == 0 && Fraction(t, 3) == Some(r.value.3)
    ensures r.Some? && |t| > 2 && t[2] == ':' ==> Field(t, 3, 2) == Some(r.value.1)
    ensures r.Some? && |t| == 5 ==> r.value.2 == 0
    ensures (r.Some? && |t| > 5 && t[2] == ':' && t[5] == '.') ==> r.value.2 == 0 && Fraction(t, 6) == Some(r.value.3)
    ensures (r.Some? && |t| > 5 && t[2] == ':' && t[5] == ':') ==> Field(t, 6, 2) == Some(r.value.2)
    ensures (r.Some? && |t| > 8 && t[2] == ':' && t[5] == ':') ==> Fraction(t, 9) == Some(r.value.3)
  {
    var h := Field(t, 0, 2);
    if h.None? then None
    else if |t| == 2 then Some((h.value, 0, 0, 0))
    else if |t| == 3 || (t[2] != ':' && t[2] != '.') then None
    else if t[2] == '.' then
      match Fraction(t, 3) case None => None case Some(f) => Some((h.value, 0, 0, f))
    else
      var m := Field(t, 3, 2);
      if m.None? then None
      else if |t| == 5 then Some((h.value, m.value, 0, 0))
      else if |t| == 6 || (t[5] != ':' && t[5] != '.') then None
      else if t[5] == '.' then
        match Fraction(t, 6) case None => None case Some(f) => Some((h.value, m.value, 0, f))
      else
        var s := Field(t, 6, 2);
        if s.None? then None
        else if |t| == 8 then Some((h.value, m.value, s.value, 0))
        else if |t| == 9 || (t[8] != ':' && t[8] != '.') then None
        else
          match Fraction(t, 9) case None => None case Some(f) => Some((h.value, m.value, s.value, f))
  }

  /** Why `fromisoformat` raises `ValueError`: the text does not follow the grammar (Python
      reports it as "Invalid isoformat string: " followed by the `repr` of the text), or a field
      is outside the range the `datetime` constructor enforces, with the constructor's message. */
  datatype IsoError = InvalidIsoString(text: string) | OutOfRange(message: string)

  /** The `datetime` constructor's complaint about the first field out of range, checked in the
      order year, month, day, hour, minute, second, microsecond; `None` when all are in range. */
  function RangeError(m: Moment): (r: Option<string>)
    ensures r.None? <==> ValidMoment(m)
    ensures !(1 <= m.year <= 9999) ==> r == Some("year " + Numeral(m.year) + " is out of range")
    ensures 1 <= m.year <= 9999 && !(1 <= m.month <= 12) ==> r == Some("month must be in 1..12")
    ensures (1 <= m.year <= 9999 && 1 <= m.month <= 12 && !(1 <= m.day <= DaysInMonth(m.year, m.month)))
      ==> r == Some("day is out of range for month")
    ensures ValidDate(m) && !(0 <= m.hour < 24) ==> r == Some("hour must be in 0..23")
    ensures ValidDate(m) && 0 <= m.hour < 24 && !(0 <= m.minute < 60) ==> r == Some("minute must be in 0..59")
    ensures (ValidDate(m) && 0 <= m.hour < 24 && 0 <= m.minute < 60 && !(0 <= m.second < 60))
      ==> r == Some("second must be in 0..59")
    ensures (ValidDate(m) && 0 <= m.hour < 24 && 0 <= m.minute < 60 && 0 <= m.second < 60
      && !(0 <= m.microsecond < 1000000)) ==> r == Some("microsecond must be in 0..999999")
  {
    if !(1 <= m.year <= 9999) then Some("year " + Numeral(m.year) + " is out of range")
    else if !(1 <= m.month <= 12) then Some("month must be in 1..12")
    else if !ValidDate(m) then Some("day is out of range for month")
    else if !(0 <= m.hour < 24) then Some("hour must be in 0..23")
    else if !(0 <= m.minute < 60) then Some("minute must be in 0..59")
    else if !(0 <= m.second < 60) then Some("second must be in 0..59")
    else if !(0 <= m.microsecond < 1000000) then Some("microsecond must be in 0..999999")
    else None
  }

  /** The fields `fromisoformat` reads from `s`, before any range check: `YYYY-MM-DD`,
      optionally followed by any one separator character and a time part; `None` for text that
      does not follow this grammar. */
  function ReadIso(s: string): (r: Option<Moment>)
    ensures r.Some? <==> (|s| >= 10 && s[4] == '-' && s[7] == '-'
      && Field(s, 0, 4).Some? && Field(s, 5, 2).Some? && Field(s, 8, 2).Some?
      && (|s| == 10 || (|s| > 11 && ParseTime(s[11..]).Some?)))
    ensures r.Some? ==> |s| == 10 || (|s| > 11 && ParseTime(s[11..]).Some?)
    ensures r.Some? && |s| == 10 ==> (r.value.hour == 0 && r.value.minute == 0 && r.value.second == 0
      && r.value.microsecond == 0)
    ensures r.Some? && |s| > 11 ==> (ParseTime(s[11..]).Some?
      && r.value.hour == ParseTime(s[11..]).value.0 && r.value.minute == ParseTime(s[11..]).value.1
      && r.value.second == ParseTime(s[11..]).value.2 && r.value.microsecond == ParseTime(s[11..]).value.3)
    ensures r.Some? ==> (0 <= r.value.year && 0 <= r.value.month && 0 <= r.value.day
      && Field(s, 0, 4) == Some(r.value.year as nat) && s[4] == '-'
      && Field(s, 5, 2) == Some(r.value.month as nat) && s[7] == '-' && Field(s, 8, 2) == Some(r.value.day as nat))
  {
    var year, month, day := Field(s, 0, 4), Field(s, 5, 2), Field(s, 8, 2);
    if |s| < 10 || s[4] != '-' || s[7] != '-' || year.None? || month.None? || day.None? then None
    else
      var clock := if |s| == 10 then Some((0, 0, 0, 0)) else if |s| == 11 then None else ParseTime(s[11..]);
      if clock.None? then None
      else
        var (hour, minute, second, micro) := clock.value;
        Some(Moment(year.value, month.value, day.value, hour, minute, second, micro))
  }

  /** `datetime.fromisoformat(s)` for strings without a UTC offset: text outside the grammar is
      an invalid string, fields outside their ranges are refused with the constructor's message,
      and anything else is the date-time read. */
  function FromIsoFormat(s: string): (r: Result<DateTime, IsoError>)
    ensures r == Failure(InvalidIsoString(s)) <==> ReadIso(s).None?
    ensures r.Success? ==> r.value == ReadIso(s).value
    ensures ReadIso(s).Some? ==> (r.Success? <==> ValidMoment(ReadIso(s).value))
    ensures ReadIso(s).Some? && r.Failure? ==> r.error == OutOfRange(RangeError(ReadIso(s).value).value)
    ensures r.Success? ==> |s| == 10 || (|s| > 11 && ParseTime(s[11..]).Some?)
    ensures r.Success? ==> (Field(s, 0, 4) == Some(r.value.year as nat) && s[4] == '-'
      && Field(s, 5, 2) == Some(r.value.month as nat) && s[7] == '-' && Field(s, 8, 2) == Some(r.value.day as nat))
  {
    match ReadIso(s)
    case None => Failure(InvalidIsoString(s))
    case Some(m) =>
      match RangeError(m)
      case None => Success(m)
      case Some(message) => Failure(OutOfRange(message))
  }

  /** The value of a two-digit field. */
  lemma TwoDigits(a: char, b: char)
    requires IsDigit(a) && IsDigit(b)
    ensures AllDigits([a, b]) && DigitsValue([a, b]) == (a as int - '0' as int) * 10 + (b as int - '0' as int)
  {
    assert [a][..0] == [];
    assert DigitsValue([a]) == a as int - '0' as int;
    assert [a, b][..1] == [a];
  }

  /** The value of a four-digit field. */
  lemma FourDigits(a: char, b: char, c: char, d: char)
    requires IsDigit(a) && IsDigit(b) && IsDigit(c) && IsDigit(d)
    ensures AllDigits([a, b, c, d])
    ensures DigitsValue([a, b, c, d])
      == (a as int - '0' as int) * 1000 + (b as int - '0' as int) * 100 + (c as int - '0' as int) * 10 + (d as int - '0' as int)
  {
    assert [a, b, c, d][..3] == [a, b, c];
    ThreeDigits(a, b, c);
  }

  /** The value of a three-digit field. */
  lemma ThreeDigits(a: char, b: char, c: char)
    requires IsDigit(a) && IsDigit(b) && IsDigit(c)
    ensures AllDigits([a, b, c])
    ensures DigitsValue([a, b, c]) == (a as int - '0' as int) * 100 + (b as int - '0' as int) * 10 + (c as int - '0' as int)
  {
    assert [a, b, c][..2] == [a, b];
    TwoDigits(a, b);
  }

  /** A decimal point right after the hours starts the fraction; minutes and seconds are zero. */
  lemma FractionAfterHours()
    ensures ParseTime("12.500") == Some((12, 0, 0, 500000))
  {
    var t := "12.500";
    assert t[0..2] == ['1', '2'];
    assert t[3..6] == ['5', '0', '0'];
    TwoDigits('1', '2');
    ThreeDigits('5', '0', '0');
  }

  /** A decimal point right after the minutes starts the fraction; seconds are zero. */
  lemma FractionAfterMinutes()
    ensures ParseTime("12:30.500") == Some((12, 30, 0, 500000))
  {
    var t := "12:30.500";
    assert t[0..2] == ['1', '2'];
    assert t[3..5] == ['3', '0'];
    assert t[6..9] == ['5', '0', '0'];
    TwoDigits('1', '2');
    TwoDigits('3', '0');
    ThreeDigits('5', '0', '0');
  }

  /** A thirteenth month is refused with the constructor's message, not as an invalid string. */
  lemma MonthThirteen()
    ensures FromIsoFormat("2023-13-01") == Failure(OutOfRange("month must be in 1..12"))
  {
    var s := "2023-13-01";
    assert s[0..4] == ['2', '0', '2', '3'];
    assert s[5..7] == ['1', '3'];
    assert s[8..10] == ['0', '1'];
    FourDigits('2', '0', '2', '3');
    TwoDigits('1', '3');
    TwoDigits('0', '1');
  }

  /** The year 0 parses, and is refused as out of range. */
  lemma YearZero()
    ensures FromIsoFormat("0000-01-01T00:00") == Failure(OutOfRange("year 0 is out of range"))
  {
    var s := "0000-01-01T00:00";
    assert s[0..4] == ['0', '0', '0', '0'];
    assert s[5..7] == ['0', '1'];
    assert s[8..10] == ['0', '1'];
    FourDigits('0', '0', '0', '0');
    TwoDigits('0', '1');
    var time := s[11..];
    assert time == ['0', '0', ':', '0', '0'];
    assert time[0..2] == ['0', '0'] && time[3..5] == ['0', '0'];
    TwoDigits('0', '0');
    assert ParseTime(time) == Some((0, 0, 0, 0));
    var m := Moment(0, 1, 1, 0, 0, 0, 0);
    assert ReadIso(s) == Some(m);
    assert Numeral(0) == "0";
    assert "year " + "0" + " is out of range" == "year 0 is out of range";
  }

  /** Where the pieces of `a + [x] + b` sit. */
  lemma Pieces(a: string, x: char, b: string)
    ensures (a + [x] + b)[..|a|] == a && (a + [x] + b)[|a|] == x && (a + [x] + b)[|a| + 1..] == b
  {
  }

  /** The fields of a formatted date sit where `fromisoformat` reads them. */
  lemma DateFields(d: DateTime)
    ensures var s := DateText(d);
      && Field(s, 0, 4) == Some(d.year as nat) && s[4] == '-'
      && Field(s, 5, 2) == Some(d.month as nat) && s[7] == '-' && Field(s, 8, 2) == Some(d.day as nat)
  {
    var y, mo, dd := Padded(d.year, 4), Padded(d.month, 2), Padded(d.day, 2);
    var s := DateText(d);
    assert s == (y + ['-'] + mo) + ['-'] + dd;
    Pieces(y + ['-'] + mo, '-', dd);
    Pieces(y, '-', mo);
    assert s[..4] == y && s[5..7] == mo && s[8..10] == dd;
    PaddedValue(d.year, 4);
    PaddedValue(d.month, 2);
    PaddedValue(d.day, 2);
  }

  /** The fields of a formatted clock sit where `fromisoformat` reads them. */
  lemma ClockFields(d: DateTime)
    ensures var c := ClockText(d);
      && Field(c, 0, 2) == Some(d.hour as nat) && c[2] == ':'
      && Field(c, 3, 2) == Some(d.minute as nat) && c[5] == ':' && Field(c, 6, 2) == Some(d.second as nat)
  {
    var h, mi, se := Padded(d.hour, 2), Padded(d.minute, 2), Padded(d.second, 2);
    var c := ClockText(d);
    assert c == (h + [':'] + mi) + [':'] + se;
    Pieces(h + [':'] + mi, ':', se);
    Pieces(h, ':', mi);
    assert c[..2] == h && c[3..5] == mi && c[6..8] == se;
    PaddedValue(d.hour, 2);
    PaddedValue(d.minute, 2);
    PaddedValue(d.second, 2);
  }

  /** Text appended after a field does not change it. */
  lemma FieldOfPrefix(s: string, rest: string, i: nat, n: nat)
    requires i + n <= |s|
    ensures Field(s + rest, i, n) == Field(s, i, n)
  {
    assert (s + rest)[i..i + n] == s[i..i + n];
  }

  /** The fields of a formatted time sit where `fromisoformat` reads them. */
  lemma TimeFields(d: DateTime)
    ensures ParseTime(TimeText(d)) == Some((d.hour as nat, d.minute as nat, d.second as nat, d.microsecond as nat))
  {
    var c := ClockText(d);
    ClockFields(d);
    if d.microsecond != 0 {
      var us := Padded(d.microsecond, 6);
      var t := TimeText(d);
      var tail := ['.'] + us;
      assert t == c + tail;
      FieldOfPrefix(c, tail, 0, 2);
      FieldOfPrefix(c, tail, 3, 2);
      FieldOfPrefix(c, tail, 6, 2);
      assert t[2] == ':' && t[5] == ':' && t[8] == '.';
      assert t[9..15] == us;
      PaddedValue(d.microsecond, 6);
    }
  }

  /** Reading back what `isoformat` wrote gives the same date-time. */
  lemma RoundTrip(d: DateTime)
    ensures FromIsoFormat(IsoFormat(d)) == Success(d)
  {
    var date, time := DateText(d), TimeText(d);
    var s := IsoFormat(d);
    assert s == date + ['T'] + time;
    Pieces(date, 'T', time);
    DateFields(d);
    TimeFields(d);
    assert s[0..4] == date[0..4] && s[5..7] == date[5..7] && s[8..10] == date[8..10];
    assert s[4] == date[4] && s[7] == date[7];
  }
}

=== FILE: log_handler.dfy ===
/** The log store: a parser for lines of the form `[TIMESTAMP] [LEVEL] [MODULE] Message`
    and a handler that appends parsed entries to a list and answers queries over it. */
module Logs {
  import opened Basics
  import opened Text
  import opened Seqs

  /** One parsed log line. */
  datatype LogEntry = LogEntry(timestamp: string, level: string, moduleName: string, message: string)

  /** The text between two bracketed groups, and the text after the last one. */
  const Sep: string := "] ["
  const Close: string := "] "

  const DefaultLevel: string := "INFO"
  const DefaultModule: string := "UNKNOWN"

  // ---------------------------------------------------------------------------------------
  // The pattern `\[(.*?)\] \[(.*?)\] \[(.*?)\] (.*)` applied with `re.match`: anchored at the
  // start of the line only, and each lazy group taking the shortest text for which the rest of
  // the pattern still matches. No part of the pattern matches a newline (`.` excludes it), so
  // the match lies within the text before the first newline, which is all the search looks at.
  // ---------------------------------------------------------------------------------------

  /** The text before the first newline; also what a greedy `(.*)` takes. */
  function UpToNewline(s: string): (r: string)
    ensures r <= s && '\n' !in r
    ensures |r| < |s| ==> s[|r|] == '\n'
    decreases |s|
  {
    if |s| == 0 || s[0] == '\n' then "" else [s[0]] + UpToNewline(s[1..])
  }

  /** A group of length `k` starting at `p` in `s` is followed by `delim`. */
  predicate Delimited(s: string, p: nat, k: nat, delim: string)
  {
    p + k + |delim| <= |s| && s[p + k..p + k + |delim|] == delim
  }

  /** The least length in `k..bound` that `ok` accepts: how a lazy group grows one character
      at a time until the rest of the pattern matches. */
  function Shortest(ok: nat -> bool, k: nat, bound: nat): (r: Option<nat>)
    ensures r.Some? ==> k <= r.value <= bound && ok(r.value)
    decreases bound - k
  {
    if k > bound then None
    else if ok(k) then Some(k)
    else Shortest(ok, k + 1, bound)
  }

  /** No length below the one found is accepted. */
  lemma {:induction false} ShortestIsLeast(ok: nat -> bool, k: nat, bound: nat)
    requires Shortest(ok, k, bound).Some?
    ensures forall j :: k <= j < Shortest(ok, k, bound).value ==> !ok(j)
    decreases bound - k
  {
    if !ok(k) {
      ShortestIsLeast(ok, k + 1, bound);
    }
  }

  /** An accepted length within range is found, or a shorter one is. */
  lemma {:induction false} ShortestFinds(ok: nat -> bool, k: nat, bound: nat, j: nat)
    requires k <= j <= bound && ok(j)
    ensures Shortest(ok, k, bound).Some? && Shortest(ok, k, bound).value <= j
    decreases bound - k
  {
    if !ok(k) {
      ShortestFinds(ok, k + 1, bound, j);
    }
  }

  /** A length that is accepted, with none shorter accepted, is the one found. */
  lemma ShortestIs(ok: nat -> bool, bound: nat, j: nat)
    requires j <= bound && ok(j)
    requires forall i :: 0 <= i < j ==> !ok(i)
    ensures Shortest(ok, 0, bound) == Some(j)
  {
    ShortestFinds(ok, 0, bound, j);
  }

  /** The third group may be `k` long at `p`: `] ` follows. */
  predicate LastEnds(s: string, p: nat, k: nat)
  {
    Delimited(s, p, k, Close)
  }

  /** The length of the third group `(.*?)\] ` starting at `p`. */
  function LastLength(s: string, p: nat): Option<nat>
  {
    Shortest((k: nat) => LastEnds(s, p, k), 0, |s|)
  }

  /** The second group may be `k` long at `p`: `] [` and a third group follow. */
  predicate MiddleEnds(s: string, p: nat, k: nat)
  {
    Delimited(s, p, k, Sep) && LastLength(s, p + k + |Sep|).Some?
  }

  /** The length of the second group `(.*?)\] \[` starting at `p`. */
  function MiddleLength(s: string, p: nat): Option<nat>
  {
    Shortest((k: nat) => MiddleEnds(s, p, k), 0, |s|)
  }

  /** The first group, which starts after the leading `[`, may be `k` long: `] [` and a second
      and a third group follow. */
  predicate FirstEnds(s: string, k: nat)
  {
    Delimited(s, 1, k, Sep) && MiddleLength(s, 1 + k + |Sep|).Some?
  }

  /** The length of the first group. */
  function FirstLength(s: string): Option<nat>
  {
    Shortest((k: nat) => FirstEnds(s, k), 0, |s|)
  }

  /** The lengths of the three lazy groups when the pattern matches the newline-free text `s`. */
  function GroupLengths(s: string): (r: Option<(nat, nat, nat)>)
    ensures r.Some? ==>
      && "[" <= s
      && Delimited(s, 1, r.value.0, Sep)
      && Delimited(s, 1 + r.value.0 + |Sep|, r.value.1, Sep)
      && Delimited(s, 1 + r.value.0 + |Sep| + r.value.1 + |Sep|, r.value.2, Close)
  {
    if !("[" <= s) then None
    else
      match FirstLength(s)
      case None => None
      case Some(k1) =>
        var k2 := MiddleLength(s, 1 + k1 + |Sep|).value;
        var k3 := LastLength(s, 1 + k1 + |Sep| + k2 + |Sep|).value;
        Some((k1, k2, k3))
  }

  /** `re.match` succeeds whenever the text can be cut into the pattern's parts at all, and
      then the first group is no longer than in any such cut. */
  lemma MatchComplete(s: string, j1: nat, j2: nat, j3: nat)
    requires "[" <= s
    requires Delimited(s, 1, j1, Sep)
    requires Delimited(s, 1 + j1 + |Sep|, j2, Sep)
    requires Delimited(s, 1 + j1 + |Sep| + j2 + |Sep|, j3, Close)
    ensures GroupLengths(s).Some? && GroupLengths(s).value.0 <= j1
  {
    var p2 := 1 + j1 + |Sep|;
    var p3 := p2 + j2 + |Sep|;
    ShortestFinds((k: nat) => LastEnds(s, p3, k), 0, |s|, j3);
    ShortestFinds((k: nat) => MiddleEnds(s, p2, k), 0, |s|, j2);
    ShortestFinds((k: nat) => FirstEnds(s, k), 0, |s|, j1);
  }

  /** Each group of a match is as short as it can be with the rest of the pattern matching. */
  lemma MatchIsLazy(s: string)
    requires GroupLengths(s).Some?
    ensures var (k1, k2, k3) := GroupLengths(s).value;
      var p2 := 1 + k1 + |Sep|; var p3 := p2 + k2 + |Sep|;
      && (forall j :: 0 <= j < k1 ==> !FirstEnds(s, j))
      && (forall j :: 0 <= j < k2 ==> !MiddleEnds(s, p2, j))
      && (forall j :: 0 <= j < k3 ==> !LastEnds(s, p3, j))
  {
    var (k1, k2, k3) := GroupLengths(s).value;
    var p2 := 1 + k1 + |Sep|;
    var p3 := p2 + k2 + |Sep|;
    assert FirstLength(s) == Some(k1);
    assert MiddleLength(s, p2) == Some(k2);
    assert LastLength(s, p3) == Some(k3);
    FirstIsLeast(s);
    MiddleIsLeast(s, p2);
    LastIsLeast(s, p3);
  }

  lemma FirstIsLeast(s: string)
    requires FirstLength(s).Some?
    ensures forall j :: 0 <= j < FirstLength(s).value ==> !FirstEnds(s, j)
  {
    var ok := (k: nat) => FirstEnds(s, k);
    ShortestIsLeast(ok, 0, |s|);
    forall j | 0 <= j < FirstLength(s).value
      ensures !FirstEnds(s, j)
    {
      assert !ok(j);
    }
  }

  lemma MiddleIsLeast(s: string, p: nat)
    requires MiddleLength(s, p).Some?
    ensures forall j :: 0 <= j < MiddleLength(s, p).value ==> !MiddleEnds(s, p, j)
  {
    var ok := (k: nat) => MiddleEnds(s, p, k);
    ShortestIsLeast(ok, 0, |s|);
    forall j | 0 <= j < MiddleLength(s, p).value
      ensures !MiddleEnds(s, p, j)
    {
      assert !ok(j);
    }
  }

  lemma LastIsLeast(s: string, p: nat)
    requires LastLength(s, p).Some?
    ensures forall j :: 0 <= j < LastLength(s, p).value ==> !LastEnds(s, p, j)
  {
    var ok := (k: nat) => LastEnds(s, p, k);
    ShortestIsLeast(ok, 0, |s|);
    forall j | 0 <= j < LastLength(s, p).value
      ensures !LastEnds(s, p, j)
    {
      assert !ok(j);
    }
  }

  /** The four groups of a successful match, before the brackets are stripped. */
  datatype Groups = Groups(timestamp: string, level: string, moduleName: string, message: string)

  /** The groups cut out of `s` at the given lengths; the message is all that follows. */
  function GroupsAt(s: string, k1: nat, k2: nat, k3: nat): Groups
    requires 1 + k1 + |Sep| + k2 + |Sep| + k3 + |Close| <= |s|
  {
    var p2 := 1 + k1 + |Sep|;
    var p3 := p2 + k2 + |Sep|;
    Groups(s[1..1 + k1], s[p2..p2 + k2], s[p3..p3 + k3], s[p3 + k3 + |Close|..])
  }

  /** `re.match` of the log pattern against `line`: on success the first line of `line` is made
      of the four groups and their delimiters. */
  function Match(line: string): (r: Option<Groups>)
    ensures r.Some? ==>
      UpToNewline(line) == "[" + r.value.timestamp + Sep + r.value.level + Sep + r.value.moduleName + Close + r.value.message
  {
    var s := UpToNewline(line);
    match GroupLengths(s)
    case None => None
    case Some((k1, k2, k3)) =>
      Reassemble(s, k1, k2, k3);
      Some(GroupsAt(s, k1, k2, k3))
  }

  /** Text delimited as the pattern requires is the concatenation of its groups. */
  lemma Reassemble(s: string, k1: nat, k2: nat, k3: nat)
    requires "[" <= s
    requires Delimited(s, 1, k1, Sep)
    requires Delimited(s, 1 + k1 + |Sep|, k2, Sep)
    requires Delimited(s, 1 + k1 + |Sep| + k2 + |Sep|, k3, Close)
    ensures var g := GroupsAt(s, k1, k2, k3);
      s == "[" + g.timestamp + Sep + g.level + Sep + g.moduleName + Close + g.message
  {
    var p2 := 1 + k1 + |Sep|;
    var p3 := p2 + k2 + |Sep|;
    var g := GroupsAt(s, k1, k2, k3);
    var t, l, m, msg := g.timestamp, g.level, g.moduleName, g.message;
    assert s[1 + k1..p2] == Sep && s[p2 + k2..p3] == Sep && s[p3 + k3..p3 + k3 + |Close|] == Close;
    var rest3 := s[p3..];
    SliceInThree(s, p3, p3 + k3, p3 + k3 + |Close|);
    assert rest3 == m + Close + msg;
    var rest2 := s[p2..];
    SliceInThree(s, p2, p2 + k2, p3);
    assert rest2 == l + Sep + rest3;
    var rest1 := s[1..];
    SliceInThree(s, 1, 1 + k1, p2);
    assert rest1 == t + Sep + rest2;
    assert s == "[" + rest1;
    ConcatAssoc7("[", t, Sep, l, Sep, m, Close, msg);
  }

  lemma SliceInThree(s: string, i: nat, j: nat, k: nat)
    requires i <= j <= k <= |s|
    ensures s[i..] == s[i..j] + s[j..k] + s[k..]
  {
  }

  lemma ConcatAssoc7(x1: string, x2: string, x3: string, x4: string, x5: string, x6: string, x7: string, x8: string)
    ensures x1 + (x2 + x3 + (x4 + x5 + (x6 + x7 + x8))) == x1 + x2 + x3 + x4 + x5 + x6 + x7 + x8
  {
  }

  predicate IsBracket(c: char)
  {
    c == '[' || c == ']'
  }

  /** Python's `s.lstrip('[]')`. */
  function StripLeft(s: string): (r: string)
    ensures |r| <= |s| && r == s[|s| - |r|..]
    ensures forall i :: 0 <= i < |s| - |r| ==> IsBracket(s[i])
    ensures r == [] || !IsBracket(r[0])
    decreases |s|
  {
    if |s| > 0 && IsBracket(s[0]) then StripLeft(s[1..]) else s
  }

  /** Python's `s.rstrip('[]')`. */
  function StripRight(s: string): (r: string)
    ensures |r| <= |s| && r == s[..|r|]
    ensures forall i :: |r| <= i < |s| ==> IsBracket(s[i])
    ensures r == [] || !IsBracket(r[|r| - 1])
    decreases |s|
  {
    if |s| > 0 && IsBracket(s[|s| - 1]) then StripRight(s[..|s| - 1]) else s
  }

  /** Every character of `s` is a bracket. */
  predicate AllBrackets(s: string)
  {
    forall i :: 0 <= i < |s| ==> IsBracket(s[i])
  }

  /** `s` is `r` with brackets only around it: `i` of them before and the rest after. */
  predicate TrimmedAt(s: string, r: string, i: int)
  {
    0 <= i <= |s| - |r| && s[i..i + |r|] == r && AllBrackets(s[..i]) && AllBrackets(s[i + |r|..])
  }

  /** Python's `s.strip('[]')`: the result neither begins nor ends with a bracket, and only
      brackets were removed, from the two ends. */
  function Strip(s: string): (r: string)
    ensures r == [] || (!IsBracket(r[0]) && !IsBracket(r[|r| - 1]))
    ensures exists i :: TrimmedAt(s, r, i)
    ensures (forall i :: 0 <= i < |s| ==> !IsBracket(s[i])) ==> r == s
  {
    var l := StripLeft(s);
    var r := StripRight(l);
    assert r == s[|s| - |l|..|s| - |l| + |r|];
    assert TrimmedAt(s, r, |s| - |l|);
    r
  }

  /** `LogHandler.parse_log`: the matched groups with brackets stripped from level and module,
      or, for a line that does not match, the whole line as the message of an `INFO` entry of
      module `UNKNOWN` stamped with the current time `now`. */
  function ParseLog(line: string, now: string): (e: LogEntry)
    ensures Match(line).None? ==> e == LogEntry(now, DefaultLevel, DefaultModule, line)
    ensures Match(line).Some? ==>
      var g := Match(line).value;
      e == LogEntry(g.timestamp, Strip(g.level), Strip(g.moduleName), g.message)
    ensures e.level == [] || (!IsBracket(e.level[0]) && !IsBracket(e.level[|e.level| - 1]))
    ensures e.moduleName == [] || (!IsBracket(e.moduleName[0]) && !IsBracket(e.moduleName[|e.moduleName| - 1]))
  {
    match Match(line)
    case Some(g) => LogEntry(g.timestamp, Strip(g.level), Strip(g.moduleName), g.message)
    case None => LogEntry(now, DefaultLevel, DefaultModule, line)
  }

  /** The line `[t] [l] [m] msg`. */
  function Line(t: string, l: string, m: string, msg: string): string
  {
    "[" + (t + Sep + (l + Sep + (m + Close + msg)))
  }

  /** A line in the documented format whose groups hold no `]` and no newline parses into its
      parts, with brackets stripped from level and module, and the message ending at the first
      newline. */
  lemma ParseWellFormed(t: string, l: string, m: string, msg: string, now: string)
    requires ']' !in t && ']' !in l && ']' !in m
    requires '\n' !in t && '\n' !in l && '\n' !in m
    ensures ParseLog(Line(t, l, m, msg), now) == LogEntry(t, Strip(l), Strip(m), UpToNewline(msg))
  {
    FirstLineOfLine(t, l, m, msg);
    LengthsOfLine(t, l, m, UpToNewline(msg));
    GroupsOfLine(t, l, m, UpToNewline(msg));
  }

  /** A one-line message in that format comes back whole. */
  lemma ParseOneLine(t: string, l: string, m: string, msg: string, now: string)
    requires ']' !in t && ']' !in l && ']' !in m
    requires '\n' !in t && '\n' !in l && '\n' !in m && '\n' !in msg
    ensures ParseLog(Line(t, l, m, msg), now) == LogEntry(t, Strip(l), Strip(m), msg)
  {
    ParseWellFormed(t, l, m, msg, now);
    UpToNewlineWhole(msg);
  }

  /** Levels and modules written without brackets come back unchanged. */
  lemma ParsePlainLine(t: string, l: string, m: string, msg: string, now: string)
    requires ']' !in t && '\n' !in t && '\n' !in l && '\n' !in m && '\n' !in msg
    requires forall i :: 0 <= i < |l| ==> !IsBracket(l[i])
    requires forall i :: 0 <= i < |m| ==> !IsBracket(m[i])
    ensures ParseLog(Line(t, l, m, msg), now) == LogEntry(t, l, m, msg)
  {
    ParseOneLine(t, l, m, msg, now);
  }

  /** The first line of a line in the format ends where the first line of its message ends. */
  lemma FirstLineOfLine(t: string, l: string, m: string, msg: string)
    requires '\n' !in t && '\n' !in l && '\n' !in m
    ensures UpToNewline(Line(t, l, m, msg)) == Line(t, l, m, UpToNewline(msg))
  {
    var head := "[" + (t + Sep + (l + Sep + (m + Close)));
    assert Line(t, l, m, msg) == head + msg;
    assert Line(t, l, m, UpToNewline(msg)) == head + UpToNewline(msg);
    assert '\n' !in head;
    UpToNewlineAppend(head, msg);
  }

  /** Text before the first newline of `a + b`, when `a` has none. */
  lemma {:induction false} UpToNewlineAppend(a: string, b: string)
    requires '\n' !in a
    ensures UpToNewline(a + b) == a + UpToNewline(b)
    decreases |a|
  {
    if |a| == 0 {
      assert a + b == b;
    } else {
      var ab := a + b;
      assert ab[0] == a[0] && ab[1..] == a[1..] + b;
      UpToNewlineAppend(a[1..], b);
      assert UpToNewline(ab) == [a[0]] + UpToNewline(ab[1..]);
      assert a == [a[0]] + a[1..];
    }
  }

  /** A string without a newline is taken whole. */
  lemma UpToNewlineWhole(s: string)
    requires '\n' !in s
    ensures UpToNewline(s) == s
  {
    UpToNewlineAppend(s, "");
    assert s + "" == s;
  }

  /** Where the parts of `Line(t, l, m, msg)` sit. */
  lemma LineLayout(t: string, l: string, m: string, msg: string)
    ensures var line := Line(t, l, m, msg);
      var p2 := 1 + |t| + |Sep|; var p3 := p2 + |l| + |Sep|;
      && |line| == p3 + |m| + |Close| + |msg|
      && line[1..] == t + Sep + line[p2..]
      && line[p2..] == l + Sep + line[p3..]
      && line[p3..] == m + Close + msg
  {
    var c := m + Close + msg;
    var b := l + Sep + c;
    var a := t + Sep + b;
    var line := Line(t, l, m, msg);
    assert line == "[" + a;
    var p2 := 1 + |t| + |Sep|;
    var p3 := p2 + |l| + |Sep|;
    assert line[1..] == a;
    assert line[p2..] == a[|t| + |Sep|..] == b;
    assert line[p3..] == b[|l| + |Sep|..] == c;
  }

  /** The lazy groups of `Line(t, l, m, msg)` have the lengths of `t`, `l` and `m`. */
  lemma LengthsOfLine(t: string, l: string, m: string, msg: string)
    requires ']' !in t && ']' !in l && ']' !in m
    ensures GroupLengths(Line(t, l, m, msg)) == Some((|t|, |l|, |m|))
  {
    var line := Line(t, l, m, msg);
    LineSearches(t, l, m, msg);
    GroupLengthsFrom(line, |t|, |l|, |m|);
  }

  /** The three searches on `Line(t, l, m, msg)` find the lengths of `t`, `l` and `m`. */
  lemma LineSearches(t: string, l: string, m: string, msg: string)
    requires ']' !in t && ']' !in l && ']' !in m
    ensures var line := Line(t, l, m, msg);
      && |line| > 0 && line[0] == '['
      && FirstLength(line) == Some(|t|)
      && MiddleLength(line, 1 + |t| + |Sep|) == Some(|l|)
      && LastLength(line, 1 + |t| + |Sep| + |l| + |Sep|) == Some(|m|)
  {
    LastOfLine(t, l, m, msg);
    MiddleOfLine(t, l, m, msg);
    FirstOfLine(t, l, m, msg);
  }

  lemma LastOfLine(t: string, l: string, m: string, msg: string)
    requires ']' !in m
    ensures LastLength(Line(t, l, m, msg), 1 + |t| + |Sep| + |l| + |Sep|) == Some(|m|)
  {
    LineLayout(t, l, m, msg);
    LastGroupFound(Line(t, l, m, msg), 1 + |t| + |Sep| + |l| + |Sep|, m, msg);
  }

  lemma MiddleOfLine(t: string, l: string, m: string, msg: string)
    requires ']' !in l && ']' !in m
    ensures MiddleLength(Line(t, l, m, msg), 1 + |t| + |Sep|) == Some(|l|)
  {
    var line := Line(t, l, m, msg);
    LineLayout(t, l, m, msg);
    LastOfLine(t, l, m, msg);
    MiddleGroupFound(line, 1 + |t| + |Sep|, l, line[1 + |t| + |Sep| + |l| + |Sep|..]);
  }

  lemma FirstOfLine(t: string, l: string, m: string, msg: string)
    requires ']' !in t && ']' !in l && ']' !in m
    ensures Line(t, l, m, msg)[0] == '['
    ensures FirstLength(Line(t, l, m, msg)) == Some(|t|)
  {
    var line := Line(t, l, m, msg);
    LineLayout(t, l, m, msg);
    MiddleOfLine(t, l, m, msg);
    FirstGroupFound(line, t, line[1 + |t| + |Sep|..]);
  }

  /** The group lengths are the ones the three searches find in turn. */
  lemma GroupLengthsFrom(s: string, k1: nat, k2: nat, k3: nat)
    requires |s| > 0 && s[0] == '['
    requires FirstLength(s) == Some(k1)
    requires MiddleLength(s, 1 + k1 + |Sep|) == Some(k2)
    requires LastLength(s, 1 + k1 + |Sep| + k2 + |Sep|) == Some(k3)
    ensures GroupLengths(s) == Some((k1, k2, k3))
  {
    assert s[..1] == "[";
  }

  /** Cut at those lengths, `Line(t, l, m, msg)` gives back its parts. */
  lemma GroupsOfLine(t: string, l: string, m: string, msg: string)
    ensures |Line(t, l, m, msg)| == 1 + |t| + |Sep| + |l| + |Sep| + |m| + |Close| + |msg|
    ensures GroupsAt(Line(t, l, m, msg), |t|, |l|, |m|) == Groups(t, l, m, msg)
  {
    var line := Line(t, l, m, msg);
    var p2 := 1 + |t| + |Sep|;
    var p3 := p2 + |l| + |Sep|;
    LineLayout(t, l, m, msg);
    assert line[1..1 + |t|] == t;
    assert line[p2..p2 + |l|] == l;
    assert line[p3..p3 + |m|] == m;
    assert line[p3 + |m| + |Close|..] == msg;
  }

  /** A group `g` without `]`, followed at `p` by a delimiter that begins with `]`, is delimited
      at its own length and at no shorter one. */
  lemma GroupEndsAtItsLength(s: string, p: nat, g: string, delim: string)
    requires p + |g| + |delim| <= |s| && s[p..p + |g|] == g && s[p + |g|..p + |g| + |delim|] == delim
    requires ']' !in g && |delim| > 0 && delim[0] == ']'
    ensures Delimited(s, p, |g|, delim)
    ensures forall j :: 0 <= j < |g| ==> !Delimited(s, p, j, delim)
  {
    forall j | 0 <= j < |g|
      ensures !Delimited(s, p, j, delim)
    {
      assert s[p + j] == g[j];
    }
  }

  /** The third group of `m] msg` at `p` is `m`. */
  lemma LastGroupFound(s: string, p: nat, m: string, msg: string)
    requires p <= |s| && s[p..] == m + Close + msg
    requires ']' !in m
    ensures LastLength(s, p) == Some(|m|)
  {
    assert s[p..p + |m|] == m;
    assert s[p + |m|..p + |m| + |Close|] == Close;
    GroupEndsAtItsLength(s, p, m, Close);
    var ok := (k: nat) => LastEnds(s, p, k);
    assert ok(|m|);
    forall i | 0 <= i < |m|
      ensures !ok(i)
    {
      assert !Delimited(s, p, i, Close);
    }
    ShortestIs(ok, |s|, |m|);
  }

  /** The second group of `l] [...` at `p` is `l`, when a third group follows. */
  lemma MiddleGroupFound(s: string, p: nat, l: string, after: string)
    requires p <= |s| && s[p..] == l + Sep + after
    requires ']' !in l
    requires LastLength(s, p + |l| + |Sep|).Some?
    ensures MiddleLength(s, p) == Some(|l|)
  {
    assert s[p..p + |l|] == l;
    assert s[p + |l|..p + |l| + |Sep|] == Sep;
    GroupEndsAtItsLength(s, p, l, Sep);
    var ok := (k: nat) => MiddleEnds(s, p, k);
    assert ok(|l|);
    forall i | 0 <= i < |l|
      ensures !ok(i)
    {
      assert !Delimited(s, p, i, Sep);
    }
    ShortestIs(ok, |s|, |l|);
  }

  /** The first group of `[t] [...` is `t`, when a second and third group follow. */
  lemma FirstGroupFound(s: string, t: string, after: string)
    requires |s| > 0 && s[1..] == t + Sep + after
    requires ']' !in t
    requires MiddleLength(s, 1 + |t| + |Sep|).Some?
    ensures FirstLength(s) == Some(|t|)
  {
    assert s[1..1 + |t|] == t;
    assert s[1 + |t|..1 + |t| + |Sep|] == Sep;
    GroupEndsAtItsLength(s, 1, t, Sep);
    var ok := (k: nat) => FirstEnds(s, k);
    assert ok(|t|);
    forall i | 0 <= i < |t|
      ensures !ok(i)
    {
      assert !Delimited(s, 1, i, Sep);
    }
    ShortestIs(ok, |s|, |t|);
  }

  // ---------------------------------------------------------------------------------------
  // Queries over the stored list
  // ---------------------------------------------------------------------------------------

  /** Python's `a.upper() == b.upper()`. */
  predicate SameIgnoringCase(a: string, b: string)
  {
    Upper(a) == Upper(b)
  }

  /** Python's `keyword.lower() in text.lower()`. */
  predicate ContainsIgnoringCase(text: string, keyword: string)
  {
    Contains(Lower(text), Lower(keyword))
  }

  /** Python's slice `s[start:]` for any integer `start`: a negative start counts from the end,
      and a start outside the sequence is clipped to it. */
  function SliceFrom<T>(s: seq<T>, start: int): (r: seq<T>)
    ensures 0 <= start <= |s| ==> r == s[start..]
    ensures start > |s| ==> r == []
    ensures -|s| <= start < 0 ==> r == s[|s| + start..]
    ensures start < -|s| ==> r == s
  {
    var b := if start < 0 then (if start + |s| < 0 then 0 else start + |s|) else (if start > |s| then |s| else start);
    s[b..]
  }

  /** `logs[-n:]` as `get_recent_logs` computes it. */
  function Recent<T>(logs: seq<T>, n: int): (r: seq<T>)
    ensures 1 <= n <= |logs| ==> r == logs[|logs| - n..]
    ensures n >= |logs| ==> r == logs
    ensures n == 0 ==> r == logs
    ensures n < 0 ==> r == (if -n <= |logs| then logs[-n..] else [])
  {
    SliceFrom(logs, -n)
  }

  /** Asking for the zero most recent entries of a non-empty list returns every entry. */
  lemma RecentZeroReturnsAll<T>(logs: seq<T>)
    requires |logs| > 0
    ensures |Recent(logs, 0)| == |logs| > 0
  {
  }

  /** The `n` most recent entries, as the docstring of `get_recent_logs` describes them:
      the last `min(n, |logs|)` entries in their order. */
  function LastN<T>(logs: seq<T>, n: nat): (r: seq<T>)
    ensures |r| == if n <= |logs| then n else |logs|
    ensures r == logs[|logs| - |r|..]
  {
    if n <= |logs| then logs[|logs| - n..] else logs
  }

  /** The two agree for every positive count. */
  lemma RecentAgreesForPositive<T>(logs: seq<T>, n: int)
    requires n > 0
    ensures Recent(logs, n) == LastN(logs, n)
  {
  }

  /** The store of parsed log entries. */
  class LogHandler {
    var logs: seq<LogEntry>

    /** A new handler holds no entries. */
    constructor ()
      ensures logs == []
    {
      logs := [];
    }

    /** `add_log`: parses `line` (stamping it with `now` if it does not match) and appends it;
        earlier entries are unchanged. */
    method AddLog(line: string, now: string)
      modifies this
      ensures logs == old(logs) + [ParseLog(line, now)]
      ensures |logs| == |old(logs)| + 1 && logs[..|old(logs)|] == old(logs)
    {
      var parsed := ParseLog(line, now);
      logs := logs + [parsed];
    }

    /** `get_logs_by_level`: the entries whose level equals `level` ignoring case, in order. */
    function LogsByLevel(level: string): (r: seq<LogEntry>)
      reads this
      ensures Subsequence(r, logs)
      ensures forall i :: 0 <= i < |r| ==> SameIgnoringCase(r[i].level, level)
      ensures forall i :: 0 <= i < |logs| && SameIgnoringCase(logs[i].level, level) ==>
                multiset(r)[logs[i]] == multiset(logs)[logs[i]]
    {
      Filter(logs, (e: LogEntry) => SameIgnoringCase(e.level, level))
    }

    /** `get_logs_by_module`: the entries whose module equals `module` ignoring case, in order. */
    function LogsByModule(moduleName: string): (r: seq<LogEntry>)
      reads this
      ensures Subsequence(r, logs)
      ensures forall i :: 0 <= i < |r| ==> SameIgnoringCase(r[i].moduleName, moduleName)
      ensures forall i :: 0 <= i < |logs| && SameIgnoringCase(logs[i].moduleName, moduleName) ==>
                multiset(r)[logs[i]] == multiset(logs)[logs[i]]
    {
      Filter(logs, (e: LogEntry) => SameIgnoringCase(e.moduleName, moduleName))
    }

    /** `search_logs`: the entries whose message contains `keyword` ignoring case, in order. */
    function SearchLogs(keyword: string): (r: seq<LogEntry>)
      reads this
      ensures Subsequence(r, logs)
      ensures forall i :: 0 <= i < |r| ==> ContainsIgnoringCase(r[i].message, keyword)
      ensures forall i :: 0 <= i < |logs| && ContainsIgnoringCase(logs[i].message, keyword) ==>
                multiset(r)[logs[i]] == multiset(logs)[logs[i]]
    {
      Filter(logs, (e: LogEntry) => ContainsIgnoringCase(e.message, keyword))
    }

    /** `get_recent_logs`: the slice `logs[-n:]`. */
    function RecentLogs(n: int := 10): (r: seq<LogEntry>)
      reads this
      ensures 1 <= n <= |logs| ==> r == logs[|logs| - n..]
      ensures n >= |logs| || n == 0 ==> r == logs
    {
      Recent(logs, n)
    }

    /** `clear_logs`: no entries remain. */
    method ClearLogs()
      modifies this
      ensures logs == []
    {
      logs := [];
    }
  }

  /** An empty keyword matches every entry. */
  lemma SearchEmptyKeyword(h: LogHandler)
    ensures h.SearchLogs("") == h.logs
  {
    assert Lower("") == "";
    forall e: LogEntry | e in h.logs ensures ContainsIgnoringCase(e.message, "") {
      ContainsEmpty(Lower(e.message));
    }
    FilterKeepsAll(h.logs, (e: LogEntry) => ContainsIgnoringCase(e.message, ""));
  }
}

=== FILE: prompt.dfy ===
/** The `Prompt` record: a named piece of prompt text in a project, with creation and update
    times, and its dictionary form. */
module Prompts {
  import opened Basics
  import opened IsoDates

  /** The values a prompt dictionary holds: the identifier, project, name and content fields are
      passed through unchanged whatever they are, the timestamps are strings. */
  datatype Value = Int(i: int) | Str(s: string) | Null

  type Dict = map<string, Value>

  datatype Prompt = Prompt(id: Value, projectId: Value, name: Value, content: Value, createdAt: DateTime, updatedAt: DateTime)

  /** Why `from_dict` raises. */
  datatype Error =
    | KeyError(key: string)
    /** `fromisoformat` was given something other than a string. */
    | TypeError
    /** `fromisoformat` refused the string. */
    | ValueError(cause: IsoError)

  const Keys: seq<string> := ["id", "project_id", "name", "content", "created_at", "updated_at"]

  /** `Prompt(id, project_id, name, content, created_at, updated_at)`: a missing timestamp takes
      the clock reading taken for it (`createdNow`, `updatedNow`); a given one is kept. */
  function NewPrompt(id: Value, projectId: Value, name: Value, content: Value,
                     createdAt: Option<DateTime>, updatedAt: Option<DateTime>,
                     createdNow: DateTime, updatedNow: DateTime): (p: Prompt)
    ensures p.id == id && p.projectId == projectId && p.name == name && p.content == content
    ensures p.createdAt == (if createdAt.Some? then createdAt.value else createdNow)
    ensures p.updatedAt == (if updatedAt.Some? then updatedAt.value else updatedNow)
  {
    Prompt(id, projectId, name, content,
           match createdAt case Some(t) => t case None => createdNow,
           match updatedAt case Some(t) => t case None => updatedNow)
  }

  /** `to_dict`: exactly the six keys, the timestamps in ISO form. */
  function ToDict(p: Prompt): (d: Dict)
    ensures d.Keys == {"id", "project_id", "name", "content", "created_at", "updated_at"}
    ensures d["id"] == p.id && d["project_id"] == p.projectId && d["name"] == p.name && d["content"] == p.content
    ensures d["created_at"] == Str(IsoFormat(p.createdAt)) && d["updated_at"] == Str(IsoFormat(p.updatedAt))
  {
    map["id" := p.id, "project_id" := p.projectId, "name" := p.name, "content" := p.content,
        "created_at" := Str(IsoFormat(p.createdAt)), "updated_at" := Str(IsoFormat(p.updatedAt))]
  }

  /** `datetime.fromisoformat(value)`: only a string can be read; its outcome is that of
      `fromisoformat` on it. */
  function ParseTimestamp(v: Value): (r: Result<DateTime, Error>)
    ensures !v.Str? ==> r == Failure(TypeError)
    ensures v.Str? ==> (r.Success? <==> FromIsoFormat(v.s).Success?)
    ensures v.Str? && r.Success? ==> r.value == FromIsoFormat(v.s).value
    ensures v.Str? && r.Failure? ==> r.error == ValueError(FromIsoFormat(v.s).error)
  {
    match v
    case Str(s) => (match FromIsoFormat(s) case Success(t) => Success(t) case Failure(e) => Failure(ValueError(e)))
    case _ => Failure(TypeError)
  }

  /** `data` holds all six keys of `Keys`. */
  predicate HasKeys(data: Dict)
  {
    "id" in data && "project_id" in data && "name" in data && "content" in data
    && "created_at" in data && "updated_at" in data
  }

  /** `data` holds `key` and `fromisoformat` reads its value. */
  predicate Parses(data: Dict, key: string)
  {
    key in data && ParseTimestamp(data[key]).Success?
  }

  /** `from_dict`: the arguments are evaluated in order, so the first missing key, or the first
      timestamp that does not parse, is the error raised. */
  function FromDict(data: Dict): (r: Result<Prompt, Error>)
    ensures r.Success? <==> HasKeys(data) && Parses(data, "created_at") && Parses(data, "updated_at")
    ensures r.Success? ==> (r.value.id == data["id"] && r.value.projectId == data["project_id"]
      && r.value.name == data["name"] && r.value.content == data["content"])
    ensures r.Success? ==> (r.value.createdAt == ParseTimestamp(data["created_at"]).value
      && r.value.updatedAt == ParseTimestamp(data["updated_at"]).value)
    ensures HasKeys(data) && !Parses(data, "created_at") ==>
      r == Failure(ParseTimestamp(data["created_at"]).error)
    ensures HasKeys(data) && Parses(data, "created_at") && !Parses(data, "updated_at") ==> r == Failure(ParseTimestamp(data["updated_at"]).error)
  {
    if "id" !in data then Failure(KeyError("id"))
    else if "project_id" !in data then Failure(KeyError("project_id"))
    else if "name" !in data then Failure(KeyError("name"))
    else if "content" !in data then Failure(KeyError("content"))
    else if "created_at" !in data then Failure(KeyError("created_at"))
    else
      var created := ParseTimestamp(data["created_at"]);
      if created.Failure? then Failure(created.error)
      else if "updated_at" !in data then Failure(KeyError("updated_at"))
      else
        var updated := ParseTimestamp(data["updated_at"]);
        if updated.Failure? then Failure(updated.error)
        else
          Success(NewPrompt(data["id"], data["project_id"], data["name"], data["content"],
                            Some(created.value), Some(updated.value), created.value, updated.value))
  }

  /** A prompt read back from its dictionary is the same prompt, field by field. */
  lemma DictRoundTrip(p: Prompt)
    ensures FromDict(ToDict(p)) == Success(p)
  {
    RoundTrip(p.createdAt);
    RoundTrip(p.updatedAt);
  }

  /** A dictionary lacking any of the six keys is refused, naming the first key missing. */
  lemma MissingKeyFails(data: Dict, i: nat)
    requires i < |Keys| && Keys[i] !in data
    requires forall j :: 0 <= j < i ==> Keys[j] in data
    ensures FromDict(data).Failure?
    ensures i < 5 || ParseTimestamp(data[Keys[4]]).Success? ==> FromDict(data) == Failure(KeyError(Keys[i]))
  {
    assert Keys[0] == "id" && Keys[1] == "project_id" && Keys[2] == "name";
    assert Keys[3] == "content" && Keys[4] == "created_at" && Keys[5] == "updated_at";
  }
}

=== FILE: seqs.dfy ===
/** Order-preserving selection over sequences: list comprehensions with a condition. */
module Seqs {

  /** `a` is obtained from `b` by deleting elements, keeping the order of the rest. */
  predicate Subsequence<T(==)>(a: seq<T>, b: seq<T>)
    decreases |b|
  {
    a == b
    || (|b| > 0 &&
        ((|a| > 0 && a[0] == b[0] && Subsequence(a[1..], b[1..])) || Subsequence(a, b[1..])))
  }

  /** `[x for x in s if keep(x)]`: exactly the elements of `s` that satisfy `keep`,
      each as often as in `s`, in their order in `s`. */
  function Filter<T(==)>(s: seq<T>, keep: T -> bool): (r: seq<T>)
    ensures Subsequence(r, s)
    ensures multiset(r) <= multiset(s)
    ensures forall i :: 0 <= i < |r| ==> keep(r[i])
    ensures forall i :: 0 <= i < |s| && keep(s[i]) ==> multiset(r)[s[i]] == multiset(s)[s[i]]
    decreases |s|
  {
    if |s| == 0 then []
    else
      var rest := Filter(s[1..], keep);
      var r := if keep(s[0]) then [s[0]] + rest else rest;
      FilterStep(s, keep, rest, r);
      r
  }

  /** One step of `Filter`: from the contract for the tail to the contract for `s`. */
  lemma FilterStep<T>(s: seq<T>, keep: T -> bool, rest: seq<T>, r: seq<T>)
    requires |s| > 0
    requires Subsequence(rest, s[1..]) && multiset(rest) <= multiset(s[1..])
    requires forall i :: 0 <= i < |rest| ==> keep(rest[i])
    requires forall i :: 0 <= i < |s[1..]| && keep(s[1..][i]) ==> multiset(rest)[s[1..][i]] == multiset(s[1..])[s[1..][i]]
    requires r == if keep(s[0]) then [s[0]] + rest else rest
    ensures Subsequence(r, s)
    ensures multiset(r) <= multiset(s)
    ensures forall i :: 0 <= i < |r| ==> keep(r[i])
    ensures forall i :: 0 <= i < |s| && keep(s[i]) ==> multiset(r)[s[i]] == multiset(s)[s[i]]
  {
    assert s == [s[0]] + s[1..];
    assert multiset(s) == multiset{s[0]} + multiset(s[1..]);
    if keep(s[0]) {
      assert r[1..] == rest;
      assert multiset(r) == multiset{s[0]} + multiset(rest);
      forall i | 0 <= i < |r| ensures keep(r[i]) {
        if i > 0 { assert r[i] == rest[i - 1]; }
      }
    }
    forall i | 0 <= i < |s| && keep(s[i])
      ensures multiset(r)[s[i]] == multiset(s)[s[i]]
    {
      if i > 0 {
        assert s[i] == s[1..][i - 1];
      } else if s[0] !in s[1..] {
        assert multiset(s[1..])[s[0]] == 0;
      } else {
        var j :| 0 <= j < |s[1..]| && s[1..][j] == s[0];
        assert multiset(rest)[s[1..][j]] == multiset(s[1..])[s[1..][j]];
      }
    }
  }

  /** A filter that keeps everything is the identity. */
  lemma {:induction false} FilterKeepsAll<T>(s: seq<T>, keep: T -> bool)
    requires forall x :: x in s ==> keep(x)
    ensures Filter(s, keep) == s
    decreases |s|
  {
    if |s| > 0 {
      FilterKeepsAll(s[1..], keep);
      assert s == [s[0]] + s[1..];
    }
  }

  /** Every element of a subsequence is an element of the whole. */
  lemma {:induction false} SubsequenceMembers<T>(a: seq<T>, b: seq<T>)
    requires Subsequence(a, b)
    ensures forall x :: x in a ==> x in b
    decreases |b|
  {
    if a != b {
      if |a| > 0 && a[0] == b[0] && Subsequence(a[1..], b[1..]) {
        SubsequenceMembers(a[1..], b[1..]);
        assert a == [a[0]] + a[1..];
      } else {
        SubsequenceMembers(a, b[1..]);
      }
    }
  }

  /** Filtering a list with one more element at the end filters the list, then considers that
      element. */
  lemma {:induction false} FilterSnoc<T>(s: seq<T>, x: T, keep: T -> bool)
    ensures Filter(s + [x], keep) == Filter(s, keep) + (if keep(x) then [x] else [])
    decreases |s|
  {
    if |s| == 0 {
      assert [x][1..] == [];
    } else {
      var sx := s + [x];
      assert sx[1..] == s[1..] + [x];
      FilterSnoc(s[1..], x, keep);
      FilterUnfold(sx, keep);
      FilterUnfold(s, keep);
      AppendAssoc(if keep(s[0]) then [s[0]] else [], Filter(s[1..], keep), if keep(x) then [x] else []);
    }
  }

  /** A prefix one longer is the prefix with the next element appended. */
  lemma PrefixSnoc<T>(s: seq<T>, k: nat)
    requires k < |s|
    ensures s[..k + 1] == s[..k] + [s[k]]
    ensures multiset(s[..k + 1]) == multiset(s[..k]) + multiset{s[k]}
  {
    assert s[..k + 1] == s[..k] + [s[k]];
  }

  lemma AppendAssoc<T>(a: seq<T>, b: seq<T>, c: seq<T>)
    ensures a + (b + c) == (a + b) + c
  {
  }

  /** `Filter` on a non-empty list: the head if kept, then the filtered tail. */
  lemma FilterUnfold<T>(s: seq<T>, keep: T -> bool)
    requires |s| > 0
    ensures Filter(s, keep) == (if keep(s[0]) then [s[0]] else []) + Filter(s[1..], keep)
  {
  }

  /** The keys never increase from left to right. */
  predicate SortedDesc<T>(s: seq<T>, key: T -> int)
  {
    forall i, j :: 0 <= i < j < |s| ==> key(s[i]) >= key(s[j])
  }

  /** Puts `x` into the descending list `s` before the first element with a smaller key, that is,
      after every element whose key is at least as large. */
  function InsertDesc<T>(x: T, s: seq<T>, key: T -> int): (r: seq<T>)
    ensures multiset(r) == multiset(s) + multiset{x}
    ensures SortedDesc(s, key) ==> SortedDesc(r, key)
    decreases |s|
  {
    if |s| == 0 then [x]
    else if key(s[0]) < key(x) then [x] + s
    else
      var rest := InsertDesc(x, s[1..], key);
      assert s == [s[0]] + s[1..];
      if SortedDesc(s, key) then
        forall y | y in rest ensures key(s[0]) >= key(y) {
          assert y in multiset(rest);
          if y != x {
            assert y in multiset(s[1..]);
            var k :| 0 <= k < |s[1..]| && s[1..][k] == y;
            assert s[k + 1] == y;
          }
        }
        ConsSorted(s[0], rest, key);
        [s[0]] + rest
      else
        [s[0]] + rest
  }

  /** A head whose key is at least every key of a descending list keeps it descending. */
  lemma ConsSorted<T>(head: T, rest: seq<T>, key: T -> int)
    requires SortedDesc(rest, key)
    requires forall y :: y in rest ==> key(head) >= key(y)
    ensures SortedDesc([head] + rest, key)
  {
    var r := [head] + rest;
    forall i, j | 0 <= i < j < |r| ensures key(r[i]) >= key(r[j]) {
      assert r[j] == rest[j - 1];
      if i > 0 {
        assert r[i] == rest[i - 1];
      }
    }
  }

  /** Python's `list.sort(key=key, reverse=True)`, as an insertion sort: the elements of `s` by
      descending key. Python's sort is stable; the part of stability the model relies on, that
      a list whose keys are all equal is left as it is, is `SortUniformKeys`. */
  function SortDesc<T>(s: seq<T>, key: T -> int): (r: seq<T>)
    ensures multiset(r) == multiset(s)
    ensures SortedDesc(r, key)
    decreases |s|
  {
    if |s| == 0 then []
    else
      assert s == s[..|s| - 1] + [s[|s| - 1]];
      InsertDesc(s[|s| - 1], SortDesc(s[..|s| - 1], key), key)
  }

  /** An element whose key is at most every key of the list goes to its end. */
  lemma {:induction false} InsertAfterLarger<T>(x: T, s: seq<T>, key: T -> int)
    requires forall y :: y in s ==> key(y) >= key(x)
    ensures InsertDesc(x, s, key) == s + [x]
    decreases |s|
  {
    if |s| > 0 {
      InsertAfterLarger(x, s[1..], key);
      assert s == [s[0]] + s[1..];
    }
  }

  /** When every element has the same key, sorting keeps the list as it is. */
  lemma {:induction false} SortUniformKeys<T>(s: seq<T>, key: T -> int, k: int)
    requires forall x :: x in s ==> key(x) == k
    ensures SortDesc(s, key) == s
    decreases |s|
  {
    if |s| > 0 {
      var init, last := s[..|s| - 1], s[|s| - 1];
      assert s == init + [last];
      assert SortDesc(s, key) == InsertDesc(last, SortDesc(init, key), key);
      forall y | y in init ensures key(y) == k && key(y) >= key(last) {
        assert y in s;
      }
      SortUniformKeys(init, key, k);
      InsertAfterLarger(last, init, key);
    }
  }
}

=== FILE: skill.dfy ===
/** Skills: named actions an agent runs against its environment. The two shipped skills are
    bang-bang controllers that nudge one key of the environment toward a band. */
module Skills {
  import opened Text
  import opened Environments

  /** The actions a skill can carry: the two example controllers of the source. */
  datatype Action = AdjustTemperature | AdjustHumidity

  datatype Skill = Skill(name: string, description: string, action: Action)

  const TemperatureControl: Skill := Skill("Temperature Control", "Adjust room temperature", AdjustTemperature)
  const HumidityControl: Skill := Skill("Humidity Control", "Adjust room humidity", AdjustHumidity)

  /** A controller keeps `key` inside `low..high`: a value above the band is lowered by `step`,
      one below it raised by `step`; a missing key reads as `default`. */
  datatype Band = Band(key: string, default: int, low: int, high: int, step: int)

  /** A band whose step never jumps over it (from just above, one step lands inside, and the
      same from just below) and whose default lies inside it. */
  predicate WellTuned(b: Band)
  {
    0 < b.step <= b.high - b.low + 1 && b.low <= b.default <= b.high
  }

  type Controller = b: Band | WellTuned(b) witness Band(TemperatureKey, 20, 20, 22, 1)

  /** `adjust_temperature`: band 20..22, step 1, default 20. */
  const Thermostat: Controller := Band(TemperatureKey, 20, 20, 22, 1)

  /** `adjust_humidity`: band 40..60, step 5, default 50. */
  const Humidistat: Controller := Band(HumidityKey, 50, 40, 60, 5)

  function ControllerOf(action: Action): Controller
  {
    match action
    case AdjustTemperature => Thermostat
    case AdjustHumidity => Humidistat
  }

  /** `environment.get_state().get(key, default)`. */
  function Reading(c: Controller, state: State): int
  {
    Get(state, c.key, c.default)
  }

  /** How far a value lies outside the band. */
  function Distance(c: Controller, v: int): nat
  {
    if v > c.high then v - c.high else if v < c.low then c.low - v else 0
  }

  /** The message `f"{name} {verb} the {key} {preposition} {value}"`. */
  function Report(agentName: string, verb: string, key: string, preposition: string, value: int): string
  {
    agentName + " " + verb + " the " + key + " " + preposition + " " + Numeral(value)
  }

  /** What one run of a controller writes into the environment, and the message it returns. */
  datatype Adjustment = Adjustment(written: State, message: string)

  /** One run of a controller for the agent named `agentName` on `state`: it writes only its own
      key, and only when the reading lies outside the band, moving it one step toward the band;
      the message reports the reading the key holds afterwards. */
  function Adjust(c: Controller, agentName: string, state: State): (r: Adjustment)
    ensures r.written.Keys <= {c.key}
    ensures r.written == map[] <==> c.low <= Reading(c, state) <= c.high
    ensures Reading(c, state) > c.high ==> r.written == map[c.key := Reading(c, state) - c.step]
    ensures Reading(c, state) < c.low ==> r.written == map[c.key := Reading(c, state) + c.step]
    ensures var after := Reading(c, Merged(state, r.written));
      && (Reading(c, state) > c.high ==> r.message == Report(agentName, "lowered", c.key, "to", after))
      && (Reading(c, state) < c.low ==> r.message == Report(agentName, "raised", c.key, "to", after))
      && (c.low <= Reading(c, state) <= c.high ==> r.message == Report(agentName, "maintained", c.key, "at", after))
  {
    var current := Reading(c, state);
    if current > c.high then
      var written := map[c.key := current - c.step];
      assert c.key in written;
      Adjustment(written, Report(agentName, "lowered", c.key, "to", current - c.step))
    else if current < c.low then
      var written := map[c.key := current + c.step];
      assert c.key in written;
      Adjustment(written, Report(agentName, "raised", c.key, "to", current + c.step))
    else
      Adjustment(map[], Report(agentName, "maintained", c.key, "at", current))
  }

  /** The state after one run of the controller. */
  function Step(c: Controller, state: State): State
  {
    Merged(state, Adjust(c, "", state).written)
  }

  /** A controller's run depends on the agent only for the message. */
  lemma WrittenIgnoresAgent(c: Controller, a: string, b: string, state: State)
    ensures Adjust(c, a, state).written == Adjust(c, b, state).written
  {
  }

  /** A run never moves the value away from the band: a value above it goes down, one below it
      goes up, one inside it stays put. */
  lemma StepTowardBand(c: Controller, state: State)
    ensures var before := Reading(c, state); var after := Reading(c, Step(c, state));
      && (before > c.high ==> after < before)
      && (before < c.low ==> after > before)
      && (c.low <= before <= c.high ==> after == before)
  {
    StepReading(c, state);
  }

  /** The distance to the band shrinks by a full step, or to zero, while the value is outside
      it; it never grows. */
  lemma StepDistance(c: Controller, state: State)
    ensures var d := Distance(c, Reading(c, state)); var d' := Distance(c, Reading(c, Step(c, state)));
      d' == if d > c.step then d - c.step else 0
  {
    StepReading(c, state);
  }

  /** The reading after one run, as a number. */
  lemma StepReading(c: Controller, state: State)
    ensures var before := Reading(c, state);
      Reading(c, Step(c, state)) == if before > c.high then before - c.step else if before < c.low then before + c.step else before
  {
    var written := Adjust(c, "", state).written;
    if c.low <= Reading(c, state) <= c.high {
      assert Step(c, state) == state;
    } else {
      assert c.key in written;
    }
  }

  /** A run leaves every other key as it was. */
  lemma StepKeepsOtherKeys(c: Controller, state: State)
    ensures forall k :: k in state && k != c.key ==> k in Step(c, state) && Step(c, state)[k] == state[k]
  {
  }

  /** `n` runs of the controller in a row. */
  function Repeat(c: Controller, state: State, n: nat): State
    decreases n
  {
    if n == 0 then state else Repeat(c, Step(c, state), n - 1)
  }

  /** Enough runs bring the value into the band: `n` runs suffice once `n` steps cover the
      distance, and after that it stays there. */
  lemma {:induction false} RepeatSettles(c: Controller, state: State, n: nat)
    requires Distance(c, Reading(c, state)) <= n * c.step
    ensures c.low <= Reading(c, Repeat(c, state, n)) <= c.high
    decreases n
  {
    if n > 0 {
      var next := Step(c, state);
      StepDistance(c, state);
      assert Distance(c, Reading(c, next)) <= (n - 1) * c.step by {
        NatTimesStep(n, c.step);
      }
      RepeatSettles(c, next, n - 1);
    }
  }

  lemma NatTimesStep(n: nat, step: int)
    requires n > 0
    ensures n * step == (n - 1) * step + step
  {
  }

  /** `adjust_temperature` and `adjust_humidity`: reads the key through the environment and, when
      the reading is outside the band, writes the new value back through `set_state`. */
  method Apply(c: Controller, agentName: string, env: Environment) returns (message: string)
    modifies env
    ensures env.state == Merged(old(env.state), Adjust(c, agentName, old(env.state)).written)
    ensures message == Adjust(c, agentName, old(env.state)).message
  {
    var current := Reading(c, env.GetState());
    if current > c.high {
      env.SetState(map[c.key := current - c.step]);
      message := Report(agentName, "lowered", c.key, "to", current - c.step);
    } else if current < c.low {
      env.SetState(map[c.key := current + c.step]);
      message := Report(agentName, "raised", c.key, "to", current + c.step);
    } else {
      message := Report(agentName, "maintained", c.key, "at", current);
    }
  }

  /** `Skill.execute`: runs the skill's action for the agent named `agentName` and returns what
      the action returns. */
  method Execute(skill: Skill, agentName: string, env: Environment) returns (message: string)
    modifies env
    ensures env.state == Merged(old(env.state), Adjust(ControllerOf(skill.action), agentName, old(env.state)).written)
    ensures message == Adjust(ControllerOf(skill.action), agentName, old(env.state)).message
  {
    message := Apply(ControllerOf(skill.action), agentName, env);
  }
}

=== FILE: task_assignment.dfy ===
/** Task-to-agent matching: the agents whose capabilities cover a task's required capabilities
    are ranked, offered the task one after the other until one accepts, and the accepting agent
    completes it. */
module TaskAssignment {
  import opened Basics
  import opened Text
  import opened Seqs

  /** A task dictionary. Only `required_capabilities` is read; it may be absent. */
  datatype Task = Task(name: string, description: string, requiredCapabilities: Option<seq<string>>)

  const NoSuitableAgent: string := "No suitable agent found for the task."

  /** `analyze_task`: the task's required capabilities, or none when the key is absent. */
  function AnalyzeTask(task: Task): (r: seq<string>)
    ensures task.requiredCapabilities.None? ==> r == []
    ensures task.requiredCapabilities.Some? ==> r == task.requiredCapabilities.value
  {
    match task.requiredCapabilities
    case None => []
    case Some(required) => required
  }

  /** `all(cap in capabilities for cap in required)`. */
  predicate Covers(capabilities: seq<string>, required: seq<string>)
  {
    forall cap :: cap in required ==> cap in capabilities
  }

  /** `set(s)`. */
  function Elements(s: seq<string>): set<string>
  {
    set x | x in s
  }

  /** The ranking key `len(set(capabilities) & set(required))`. */
  function MatchCount(capabilities: seq<string>, required: seq<string>): nat
  {
    |Elements(capabilities) * Elements(required)|
  }

  /** An agent that covers the requirements matches every distinct one of them, so all suitable
      agents share the same ranking key. */
  lemma CoveredMatchCount(capabilities: seq<string>, required: seq<string>)
    requires Covers(capabilities, required)
    ensures MatchCount(capabilities, required) == |Elements(required)|
  {
    assert Elements(capabilities) * Elements(required) == Elements(required);
  }

  /** The agent of a task system as the system sees it: a list of capabilities, a decision to
      accept an offered task (which may depend on the tasks offered before), and the result it
      reports when asked to complete its work. */
  class TaskAgent {
    const capabilities: seq<string>
    /** Whether the agent accepts `task` after having been offered `earlier`. */
    const decide: (Task, seq<Task>) -> bool
    /** The result of `complete_task` after the offers so far. */
    const finish: seq<Task> -> string
    /** The tasks offered to this agent, oldest first. */
    var offers: seq<Task>

    constructor (capabilities: seq<string>, decide: (Task, seq<Task>) -> bool, finish: seq<Task> -> string)
      ensures this.capabilities == capabilities && this.decide == decide && this.finish == finish
      ensures offers == []
    {
      this.capabilities := capabilities;
      this.decide := decide;
      this.finish := finish;
      offers := [];
    }

    /** `assign_task`: records the offer and answers whether the agent takes the task. */
    method AssignTask(task: Task) returns (accepted: bool)
      modifies this
      ensures offers == old(offers) + [task]
      ensures accepted == decide(task, old(offers))
    {
      accepted := decide(task, offers);
      offers := offers + [task];
    }

    /** `complete_task`: the agent's result for what it has been offered. */
    method CompleteTask() returns (result: string)
      ensures result == finish(offers)
    {
      result := finish(offers);
    }
  }

  /** The selection condition of `select_agents`, as a test on agents. */
  function Covering(required: seq<string>): TaskAgent -> bool
  {
    (a: TaskAgent) => Covers(a.capabilities, required)
  }

  /** The agents of `agents` that cover `required`, in their order. */
  function Suitable(agents: seq<TaskAgent>, required: seq<string>): (r: seq<TaskAgent>)
    ensures Subsequence(r, agents)
    ensures forall i :: 0 <= i < |r| ==> Covers(r[i].capabilities, required)
    ensures forall i :: 0 <= i < |agents| && Covers(agents[i].capabilities, required) ==>
              multiset(r)[agents[i]] == multiset(agents)[agents[i]]
  {
    Filter(agents, Covering(required))
  }

  /** An agent is suitable exactly when it is one of the agents and covers the requirements. */
  lemma SuitableExactly(agents: seq<TaskAgent>, required: seq<string>)
    ensures forall a :: a in Suitable(agents, required) <==> a in agents && Covers(a.capabilities, required)
  {
    var suitable := Suitable(agents, required);
    SubsequenceMembers(suitable, agents);
    forall a | a in suitable ensures Covers(a.capabilities, required) {
      var i :| 0 <= i < |suitable| && suitable[i] == a;
    }
    forall a | a in agents && Covers(a.capabilities, required) ensures a in suitable {
      var i :| 0 <= i < |agents| && agents[i] == a;
      assert multiset(suitable)[agents[i]] == multiset(agents)[agents[i]];
      assert a in multiset(agents);
    }
  }

  /** The sort key of `select_agents`. */
  function Ranking(required: seq<string>): TaskAgent -> int
  {
    (a: TaskAgent) => MatchCount(a.capabilities, required)
  }

  /** Ranking the suitable agents changes nothing: they all have the same key and Python's sort
      is stable, so they stay in the order of the system's agent list. */
  lemma RankingKeepsOrder(agents: seq<TaskAgent>, required: seq<string>)
    ensures SortDesc(Suitable(agents, required), Ranking(required)) == Suitable(agents, required)
  {
    var suitable := Suitable(agents, required);
    forall a | a in suitable ensures Ranking(required)(a) == |Elements(required)| {
      var i :| 0 <= i < |suitable| && suitable[i] == a;
      CoveredMatchCount(a.capabilities, required);
    }
    SortUniformKeys(suitable, Ranking(required), |Elements(required)|);
  }

  /** A task without requirements goes to every agent, in order. */
  lemma NoRequirementsSelectsAll(agents: seq<TaskAgent>)
    ensures Suitable(agents, []) == agents
  {
    FilterKeepsAll(agents, Covering([]));
  }

  /** `n` offers of `task`. */
  function Copies(task: Task, n: nat): (r: seq<Task>)
    ensures |r| == n && forall i :: 0 <= i < n ==> r[i] == task
  {
    seq(n, i => task)
  }

  /** Whether the agent at position `j` of `candidates` accepts the task when its turn comes,
      having been offered the task once for each earlier position it also holds. */
  ghost predicate AcceptsAt(candidates: seq<TaskAgent>, j: nat, task: Task)
    requires j < |candidates|
    reads candidates
  {
    var agent := candidates[j];
    agent.decide(task, agent.offers + Copies(task, multiset(candidates[..j])[agent]))
  }

  /** The agent at position `i` is the first of `candidates` to accept the task. */
  ghost predicate FirstToAccept(candidates: seq<TaskAgent>, i: nat, task: Task)
    reads candidates
  {
    i < |candidates| && AcceptsAt(candidates, i, task)
    && forall j :: 0 <= j < i ==> !AcceptsAt(candidates, j, task)
  }

  /** Every agent of `agents` has been offered the task once more for each place it holds in
      `placed`, and nothing else. */
  twostate predicate OffersRecorded(agents: seq<TaskAgent>, new placed: seq<TaskAgent>, task: Task)
    reads agents
  {
    forall a :: a in agents ==> a.offers == old(a.offers) + Copies(task, multiset(placed)[a])
  }

  /** Nobody among `candidates` accepted the task in its turn, and each was offered it once per
      place it holds. */
  twostate predicate Unassigned(agents: seq<TaskAgent>, candidates: seq<TaskAgent>, task: Task)
    reads agents
  {
    (forall j :: 0 <= j < |candidates| ==> !old(AcceptsAt(candidates, j, task)))
    && OffersRecorded(agents, candidates, task)
  }

  /** The candidate at position `i` was the first to accept the task, and the candidates up to
      and including it were offered it once per place they hold there. */
  twostate predicate AssignedTo(agents: seq<TaskAgent>, candidates: seq<TaskAgent>, task: Task, i: int)
    reads agents
  {
    0 <= i < |candidates| && old(FirstToAccept(candidates, i, task))
    && OffersRecorded(agents, candidates[..i + 1], task)
  }

  /** At most one candidate is the first to accept. */
  lemma FirstToAcceptUnique(candidates: seq<TaskAgent>, i: nat, k: nat, task: Task)
    requires FirstToAccept(candidates, i, task) && FirstToAccept(candidates, k, task)
    ensures i == k
  {
  }

  lemma CopiesSnoc(task: Task, n: nat)
    ensures Copies(task, n) + [task] == Copies(task, n + 1)
  {
  }

  class TaskAssignmentSystem {
    const agents: seq<TaskAgent>

    constructor (agents: seq<TaskAgent>)
      ensures this.agents == agents
    {
      this.agents := agents;
    }

    /** `select_agents`: every agent that holds all required capabilities, and no other, in the
        order of the agent list. */
    method SelectAgents(task: Task) returns (selected: seq<TaskAgent>)
      ensures selected == Suitable(agents, AnalyzeTask(task))
      ensures forall a :: a in selected ==> a in agents && Covers(a.capabilities, AnalyzeTask(task))
      ensures forall a :: a in agents && Covers(a.capabilities, AnalyzeTask(task)) ==> a in selected
    {
      var required := AnalyzeTask(task);
      var covers := Covering(required);
      var suitable := [];
      for i := 0 to |agents|
        invariant suitable == Filter(agents[..i], covers)
      {
        PrefixSnoc(agents, i);
        FilterSnoc(agents[..i], agents[i], covers);
        if Covers(agents[i].capabilities, required) {
          suitable := suitable + [agents[i]];
        }
      }
      assert agents[..|agents|] == agents;
      RankingKeepsOrder(agents, required);
      selected := SortDesc(suitable, Ranking(required));
      SuitableExactly(agents, required);
    }

    /** `assign_task`: the suitable agents are offered the task in order until one accepts; the
        result holds that agent alone, or nothing when none accepts. The agents up to the one
        that accepts have been offered the task once per place in the list, the later ones not
        at all. */
    method AssignTask(task: Task) returns (chosen: seq<TaskAgent>)
      modifies set a | a in agents
      ensures var candidates := Suitable(agents, AnalyzeTask(task));
        && |chosen| <= 1
        && (chosen == [] <==> forall j :: 0 <= j < |candidates| ==> !old(AcceptsAt(candidates, j, task)))
        && (chosen == [] ==> OffersRecorded(agents, candidates, task))
        && (chosen != [] ==> exists i :: (0 <= i < |candidates| && chosen == [candidates[i]]
              && old(FirstToAccept(candidates, i, task)) && OffersRecorded(agents, candidates[..i + 1], task)))
    {
      // The source calls `select_agents` here. That method changes nothing and is proved to
      // return `Suitable(agents, AnalyzeTask(task))` (see `SelectAgents`), so the function is
      // used directly: the selection is the same.
      var selected := Suitable(agents, AnalyzeTask(task));
      SubsequenceMembers(selected, agents);
      chosen := OfferInTurn(selected, task);
    }

    /** The loop of `assign_task`: offers the task to each candidate in turn and stops at the
        first one that accepts. */
    method OfferInTurn(candidates: seq<TaskAgent>, task: Task) returns (chosen: seq<TaskAgent>)
      requires forall a :: a in candidates ==> a in agents
      modifies set a | a in agents
      ensures |chosen| <= 1
      ensures chosen == [] <==> forall j :: 0 <= j < |candidates| ==> !old(AcceptsAt(candidates, j, task))
      ensures chosen == [] ==> OffersRecorded(agents, candidates, task)
      ensures chosen != [] ==> exists i :: (0 <= i < |candidates| && chosen == [candidates[i]]
        && old(FirstToAccept(candidates, i, task)) && OffersRecorded(agents, candidates[..i + 1], task))
    {
      chosen := [];
      var k := 0;
      while k < |candidates|
        invariant 0 <= k <= |candidates|
        invariant forall j :: 0 <= j < k ==> !old(AcceptsAt(candidates, j, task))
        invariant OffersRecorded(agents, candidates[..k], task)
      {
        var agent := candidates[k];
        PrefixSnoc(candidates, k);
        var accepted := agent.AssignTask(task);
        assert accepted == old(AcceptsAt(candidates, k, task));
        forall a | a in agents
          ensures a.offers == old(a.offers) + Copies(task, multiset(candidates[..k + 1])[a])
        {
          if a == agent {
            CopiesSnoc(task, multiset(candidates[..k])[a]);
          }
        }
        assert OffersRecorded(agents, candidates[..k + 1], task);
        if accepted {
          chosen := [agent];
          assert 0 <= k < |candidates| && chosen == [candidates[k]] && old(FirstToAccept(candidates, k, task))
            && OffersRecorded(agents, candidates[..k + 1], task);
          return;
        }
        assert forall j :: 0 <= j < k + 1 ==> !old(AcceptsAt(candidates, j, task));
        k := k + 1;
      }
      assert candidates[..k] == candidates;
    }

    /** `execute_task`: the fixed message when no agent accepts, otherwise the accepting agent's
        result for its offers, unchanged; the offers are recorded as `assign_task` records them. */
    method ExecuteTask(task: Task) returns (result: string)
      modifies set a | a in agents
      ensures var candidates := Suitable(agents, AnalyzeTask(task));
        || (Unassigned(agents, candidates, task) && result == NoSuitableAgent)
        || exists i :: AssignedTo(agents, candidates, task, i) && result == candidates[i].finish(candidates[i].offers)
    {
      var chosen := AssignTask(task);
      ghost var candidates := Suitable(agents, AnalyzeTask(task));
      if chosen == [] {
        assert Unassigned(agents, candidates, task);
        return NoSuitableAgent;
      }
      ghost var k :| 0 <= k < |candidates| && chosen == [candidates[k]]
        && old(FirstToAccept(candidates, k, task)) && OffersRecorded(agents, candidates[..k + 1], task);
      var results := CompleteAll(chosen);
      result := Join(results, "\n");
      assert result == candidates[k].finish(candidates[k].offers);
      assert AssignedTo(agents, candidates, task, k);
    }

    /** The loop of `execute_task`: each chosen agent's result, in order. */
    method CompleteAll(chosen: seq<TaskAgent>) returns (results: seq<string>)
      ensures |results| == |chosen|
      ensures forall j :: 0 <= j < |chosen| ==> results[j] == chosen[j].finish(chosen[j].offers)
    {
      results := [];
      for i := 0 to |chosen|
        invariant |results| == i
        invariant forall j :: 0 <= j < i ==> results[j] == chosen[j].finish(chosen[j].offers)
      {
        var r := chosen[i].CompleteTask();
        results := results + [r];
      }
    }
  }
}

=== FILE: text.dfy ===
/** String helpers: ASCII case mapping, substring search, joining, splitting, numerals. */
module Text {

  /** Upper-cases an ASCII letter; every other character is unchanged. */
  function UpperChar(c: char): char
  {
    if 'a' <= c <= 'z' then (c as int - 32) as char else c
  }

  /** Lower-cases an ASCII letter; every other character is unchanged. */
  function LowerChar(c: char): char
  {
    if 'A' <= c <= 'Z' then (c as int + 32) as char else c
  }

  /** Python's `str.upper()`, restricted to ASCII. */
  function Upper(s: string): string
  {
    seq(|s|, i requires 0 <= i < |s| => UpperChar(s[i]))
  }

  /** Python's `str.lower()`, restricted to ASCII. */
  function Lower(s: string): string
  {
    seq(|s|, i requires 0 <= i < |s| => LowerChar(s[i]))
  }

  /** Python's `key in text` on strings. */
  predicate Contains(text: string, key: string)
    decreases |text|
  {
    key <= text || (|text| > 0 && Contains(text[1..], key))
  }

  /** `key` occurs in `text` starting at offset `i`. */
  predicate OccursAt(text: string, key: string, i: int)
  {
    0 <= i <= |text| - |key| && text[i..i + |key|] == key
  }

  /** `Contains` holds exactly when `key` occurs at some offset of `text`. */
  lemma {:induction false} ContainsIffOccurs(text: string, key: string)
    ensures Contains(text, key) <==> exists i :: OccursAt(text, key, i)
    decreases |text|
  {
    OccursAtStart(text, key);
    if |text| > 0 {
      ContainsIffOccurs(text[1..], key);
      if Contains(text[1..], key) {
        var i :| OccursAt(text[1..], key, i);
        OccursShift(text, key, i);
      } else if !(key <= text) {
        forall i ensures !OccursAt(text, key, i) {
          if i > 0 {
            OccursShift(text, key, i - 1);
          }
        }
      }
    } else {
      forall i | OccursAt(text, key, i) ensures i == 0 {
      }
    }
  }

  /** An occurrence at the start is a prefix. */
  lemma OccursAtStart(text: string, key: string)
    ensures OccursAt(text, key, 0) <==> key <= text
  {
    if |key| <= |text| {
      assert text[0..|key|] == text[..|key|];
    }
  }

  /** An occurrence one place into `text` is an occurrence in its tail. */
  lemma OccursShift(text: string, key: string, i: nat)
    requires |text| > 0
    ensures OccursAt(text, key, i + 1) <==> OccursAt(text[1..], key, i)
  {
    if 0 <= i <= |text| - 1 - |key| {
      var inTail, inText := text[1..][i..i + |key|], text[i + 1..i + 1 + |key|];
      assert forall k :: 0 <= k < |key| ==> inTail[k] == inText[k];
    }
  }

  /** What a string contains, its extensions on either side contain too. */
  lemma ContainsConcat(a: string, b: string, key: string)
    ensures Contains(a, key) ==> Contains(a + b, key)
    ensures Contains(b, key) ==> Contains(a + b, key)
  {
    ContainsIffOccurs(a, key);
    ContainsIffOccurs(b, key);
    ContainsIffOccurs(a + b, key);
    if Contains(a, key) {
      var i :| OccursAt(a, key, i);
      assert (a + b)[i..i + |key|] == a[i..i + |key|];
      assert OccursAt(a + b, key, i);
    }
    if Contains(b, key) {
      var i :| OccursAt(b, key, i);
      assert (a + b)[|a| + i..|a| + i + |key|] == b[i..i + |key|];
      assert OccursAt(a + b, key, |a| + i);
    }
  }

  /** Every string contains the empty string. */
  lemma ContainsEmpty(text: string)
    ensures Contains(text, "")
  {
  }

  /** The parts written one after another, as a loop of `+=` builds them. */
  function Concat(parts: seq<string>): string
    decreases |parts|
  {
    if |parts| == 0 then "" else Concat(parts[..|parts| - 1]) + parts[|parts| - 1]
  }

  /** The concatenation is empty exactly when every part is. */
  lemma {:induction false} ConcatEmpty(parts: seq<string>)
    ensures Concat(parts) == "" <==> forall i :: 0 <= i < |parts| ==> parts[i] == ""
    decreases |parts|
  {
    if |parts| > 0 {
      var init := parts[..|parts| - 1];
      ConcatEmpty(init);
      assert forall i :: 0 <= i < |init| ==> init[i] == parts[i];
    }
  }

  /** One more part adds its text at the end. */
  lemma ConcatSnoc(parts: seq<string>, part: string)
    ensures Concat(parts + [part]) == Concat(parts) + part
  {
    assert (parts + [part])[..|parts|] == parts;
  }

  /** Concatenation distributes over appending lists of parts. */
  lemma {:induction false} ConcatAppend(xs: seq<string>, ys: seq<string>)
    ensures Concat(xs + ys) == Concat(xs) + Concat(ys)
    decreases |ys|
  {
    if |ys| == 0 {
      assert xs + ys == xs;
    } else {
      var n := |ys| - 1;
      var zs := xs + ys;
      assert zs[..|zs| - 1] == xs + ys[..n];
      assert zs[|zs| - 1] == ys[n];
      ConcatAppend(xs, ys[..n]);
    }
  }

  /** Python's `sep.join(parts)`. */
  function Join(parts: seq<string>, sep: string): string
    decreases |parts|
  {
    if |parts| == 0 then ""
    else if |parts| == 1 then parts[0]
    else parts[0] + sep + Join(parts[1..], sep)
  }

  /** JavaScript's `s.split(d)` for a one-character separator: always at least one piece. */
  function Split(s: string, d: char): (parts: seq<string>)
    ensures |parts| >= 1
    decreases |s|
  {
    if |s| == 0 then [""]
    else if s[0] == d then [""] + Split(s[1..], d)
    else
      var rest := Split(s[1..], d);
      [[s[0]] + rest[0]] + rest[1..]
  }

  /** Joining the pieces of a split with the separator gives the string back. */
  lemma {:induction false} JoinSplit(s: string, d: char)
    ensures Join(Split(s, d), [d]) == s
    decreases |s|
  {
    if |s| > 0 {
      JoinSplit(s[1..], d);
      var rest := Split(s[1..], d);
      if s[0] == d {
        assert Split(s, d) == [""] + rest;
        assert s == [d] + s[1..];
      } else {
        if |rest| == 1 {
          assert s == [s[0]] + rest[0];
        } else {
          assert Join(rest, [d]) == rest[0] + [d] + Join(rest[1..], [d]);
          assert s == [s[0]] + s[1..];
        }
      }
    }
  }

  /** A string without the separator splits into itself alone. */
  lemma {:induction false} SplitNoSeparator(s: string, d: char)
    requires d !in s
    ensures Split(s, d) == [s]
    decreases |s|
  {
    if |s| > 0 {
      assert d !in s[1..];
      SplitNoSeparator(s[1..], d);
      assert s == [s[0]] + s[1..];
    }
  }

  /** Appending the separator and a separator-free piece appends one piece. */
  lemma {:induction false} SplitAppend(s: string, d: char, piece: string)
    requires d !in piece
    ensures Split(s + [d] + piece, d) == Split(s, d) + [piece]
    decreases |s|
  {
    if |s| == 0 {
      SplitNoSeparator(piece, d);
      assert s + [d] + piece == [d] + piece;
      SplitCons(d, piece, d);
    } else {
      var u := s[1..];
      assert s == [s[0]] + u;
      assert s + [d] + piece == [s[0]] + (u + [d] + piece);
      SplitAppend(u, d, piece);
      SplitCons(s[0], u, d);
      SplitCons(s[0], u + [d] + piece, d);
      var rest := Split(u, d);
      assert (rest + [piece])[0] == rest[0];
      assert (rest + [piece])[1..] == rest[1..] + [piece];
    }
  }

  /** How `Split` treats the first character. */
  lemma SplitCons(c: char, r: string, d: char)
    ensures Split([c] + r, d) == if c == d then [""] + Split(r, d) else [[c] + Split(r, d)[0]] + Split(r, d)[1..]
  {
    assert ([c] + r)[0] == c && ([c] + r)[1..] == r;
  }

  /** The decimal digit character for `n < 10`. */
  function DigitChar(n: nat): char
    requires n < 10
  {
    ('0' as int + n) as char
  }

  /** Decimal digits of a natural number, without leading zeros. */
  function Digits(n: nat): string
    decreases n
  {
    if n < 10 then [DigitChar(n)] else Digits(n / 10) + [DigitChar(n % 10)]
  }

  /** Python's `str(i)` for an integer. */
  function Numeral(i: int): string
  {
    if i < 0 then "-" + Digits(-i) else Digits(i)
  }
}
